=== FILE: README.md ===
# promiseifyish in Dafny

A model of promiseifyish, a library that turns callback-style JavaScript
functions into promise-returning ones. The library ships the same
algorithm in four builds, and the model covers each of them:

- `src/Promiseifyish.js`, the current module;
- `docs/scripts/dist/Promiseifyish.js`, the build with an outcome redirector
  and `Promiseify.nodeStyle`;
- `dist/Promiseifyish.js`, the built module whose `isFunction` is `typeof` alone;
- `src/Promiseify.js`, the older entry point built on the `getType` ladder
  of `src/Common.js`.

Each build has the same parts:

- **The argument split.** This is `ArgumentSplit`. It decides which trailing
  arguments of a wrapped call are callbacks.
- **The synthesized callbacks.** This is `CallbackSettlement`. The build hands
  `onSuccess` and `onFailure` to the target, and they settle the promise.
- **The promise.** This is `Deferred`, a Pending → Fulfilled | Rejected state
  machine. It follows section 27.2.1.3 of ECMA-262 ("CreateResolvingFunctions"):
  the first call of resolve or reject wins.
- **Name discovery.** This is `NameDiscovery`, which walks the prototype chain.
- **The selection policy.** This is `Selection`, which handles `only`, `include`
  and `exclude`.
- **Object adaptation.** This is `ObjectAdaptation`. The object is adapted in
  place or through a shallow copy, depending on the build.

One module per build puts the parts together: `Promiseifyish`,
`RedirectingPromiseifyish`, `BuiltPromiseifyish` and `LegacyPromiseify`.

JavaScript values are modelled by `JsValues.Value`:

- An object is a reference into a heap (`seq<JsObject>`).
- A `JsObject` is its own property map plus the references of its prototypes,
  nearest first. A heap is well-formed (`JsValues.WellFormed`) when every
  prototype reference points into it and each prototype's own list is the
  rest of the chain, so adapting a prototype in place is seen by everything
  that inherits from it.
- `Object.prototype` is an ordinary object of the heap. The names it defined
  when the library loaded, which `getAllFunctionNames` captures once, are
  passed separately as `objectNames`.
- A callable is `Fn(...)`. The wrapper that `Promiseify` returns is
  `Fn(Wrapper(build, target, options))`.
- What a user function returns is supplied by a `World` oracle.
- A target's behaviour is given as a `Behaviour`: the callbacks it fires before
  returning, how it returns (a value or a throw), and the callbacks it fires
  later.
- A wrapped call yields the call made to the target, the user code invoked
  (`Call`s) and the final `Settlement` of the promise.

Where the code behaves in ways a caller might not expect, the model follows
the code. For the redirecting build's fallback redirector it also carries the
evidently intended reading:

- In `src/Promiseify.js` and `dist/Promiseifyish.js` the object branch is
  `Object.assign({}, target)`. A `null` target therefore yields a new empty
  object, not `null`.
- The `getType` ladder of `src/Common.js` calls an object that owns `length`
  but not `name` (an array) a 'string'. The older build therefore refuses
  arrays (`LegacyPromiseify.ArrayLikeObjectsAreRefused`).
- In `src/Promiseifyish.js` and the redirecting build, a `null` target with a
  non-empty `only` or `include` throws a TypeError, because the branch reads
  `null[name]` (`ObjectAdaptation.NullRead`). With neither option, `null` comes
  back unchanged.
- `only` is taken verbatim, so a name listed twice is wrapped twice
  (`ObjectAdaptation.RepeatedNameWrapsTwice`).
- The older build throws the fixed text "Cannot promisify type: ". The other
  builds append the `typeof` name to "Cannot promiseify type: ".
- Without a configured redirector, each synthesized callback falls back to a
  constant redirector named for its own slot (`trueRedirector` in `onSuccess`,
  `falseRedirector` in `onFailure`), under the comment "Be sure that the
  outcome redirector is defined" (docs/scripts/dist/Promiseifyish.js:219-240).
  That points to the slot that fired deciding the outcome. The code, however,
  stores the first fire's fallback into the shared options object, and that
  fallback then decides every later fire of every wrapper sharing the object.
  `RedirectingPromiseifyish.InvokeAsWritten` models the code, and
  `RedirectingPromiseifyish.Invoke` the evidently intended reading (see
  Findings).

## Model

| member | source | states |
|---|---|---|
| ArgumentSplit.SplitArguments | src/Promiseifyish.js:113-157 | positional ++ detected callbacks is the input; no arguments or a sole non-callable remove nothing; a sole callable is the success callback; with two or more, the last two are taken when both are callable, else the last alone when it is callable; every taken callback is callable |
| ArgumentSplit.SplitIsTheTable | src/Promiseifyish.js:119-156 | the decision table determines the split: any prefix/callable-suffix split that takes exactly the trailing callables the table names equals `SplitArguments` |
| ArgumentSplit.HasHandlersIffCallback | src/Promiseify.js:26-68 | `hasHandlers` holds iff at least one callback was detected, iff the positional arguments are shorter than the input |
| Classify.TypeOf | src/Promiseifyish.js:9-11 | `typeof` is 'function' exactly for callables and 'object' exactly for `null` and objects |
| Classify.IsFunction | src/Promiseifyish.js:19-21 | every callable is a function; besides callables only objects are, and an object is exactly when it inherits from `Function.prototype` |
| Classify.IsFunctionByTypeof | dist/Promiseifyish.js:36-38 | exactly the callables are functions |
| Classify.IsObject | src/Promiseifyish.js:29-31 | exactly `null` and the objects are objects |
| Classify.IsFunctionBuildsDiffer | dist/Promiseifyish.js:36-38 | the typeof-only `isFunction` and the `instanceof Function` one disagree exactly on objects inheriting from `Function.prototype`, and the former implies the latter |
| Classify.CallableIsTruthy | src/Promiseifyish.js:19-21 | every value `isFunction` accepts is truthy; `undefined` and `null` are never callable |
| Classify.FunctionAndObjectOverlap | src/Promiseifyish.js:19-31 | with typeof alone no value is both function and object; with `instanceof` exactly the objects inheriting from `Function.prototype` are both |
| Invocation.Execute | src/Promiseifyish.js:40-45 | a value `isFunction` rejects gives `null` and no call; a value it accepts is called once with the given arguments and its result is returned; the receiver is `{}` exactly when the context is falsy |
| JsValues.LookupIn | src/Promiseifyish.js:212 | a read through levels none of which owns the name yields `undefined` |
| JsValues.NearestLevelRead | src/Promiseifyish.js:212 | when some level owns the name, the read yields its value at a level that owns it and that no nearer level owns |
| JsValues.NearestLevelWins | src/Promiseifyish.js:212 | the first level that owns the name is the one a read finds |
| JsValues.Get | src/Promiseifyish.js:212 | `o[name]` on the object at a reference yields its own property first, and `undefined` when no object on its prototype chain owns the name |
| JsValues.SetOwn | src/Promiseifyish.js:213 | an assignment creates or overwrites an own property of that object: its keys gain just the name, the name reads there as the new value, every other name reads as before at every object, no other object and no prototype link changes, and the heap stays well-formed |
| JsValues.ArgAt | src/Promiseifyish.js:138 | `arguments[i]` is the argument at `i` inside the list and `undefined` at every other index, negative ones included |
| Deferred.Resolve | src/Promiseifyish.js:168 | resolve fulfils a pending promise with the value and leaves a settled one unchanged |
| Deferred.RejectWith | src/Promiseifyish.js:175 | reject rejects a pending promise with the value and leaves a settled one unchanged |
| Deferred.SettledIsFinal | src/Promiseifyish.js:162-180 | once settled, no later resolve or reject changes the state |
| Deferred.FirstAttemptWins | src/Promiseifyish.js:162-180 | the first resolve-or-reject call alone decides the final state; with none the promise stays pending |
| NameDiscovery.GetAllFunctionNames | src/Promiseifyish.js:56-71 | [] for anything but an object; sorted without duplicates; contains a name iff some chain level owns it with a truthy callable value and `Object.prototype` does not define it |
| NameDiscovery.DiscoveryIsDeterministic | src/Promiseifyish.js:61-70 | any two results meeting the discovery postcondition are equal, so the order in which properties are enumerated does not matter |
| NameDiscovery.CallableMemberIsDiscovered | src/Promiseifyish.js:59-67 | every member that reads as callable through the chain is offered by some level, unless `Object.prototype` defines its name |
| StringOrder.Sort | src/Promiseifyish.js:70 | `sort()` yields a strictly increasing permutation of the collected names |
| StringOrder.SortedUnique | src/Promiseifyish.js:70 | two strictly sorted lists with the same elements are equal |
| StringOrder.SortedHasNoDuplicates | src/Promiseifyish.js:70 | a strictly sorted list repeats no name |
| Selection.IncludeNames | src/Promiseifyish.js:192-200 | `include` yields each listed callable name once, exactly the listed callable names, in the order of their first occurrence |
| Selection.ExcludeNames | src/Promiseifyish.js:201-207 | the `exclude` passes keep exactly the names not excluded and never lengthen the list |
| Selection.ExcludeIsOneFilter | src/Promiseifyish.js:201-207 | the per-name `exclude` passes equal one pass that drops every occurrence of every excluded name and keeps the rest in order |
| Selection.Select | src/Promiseifyish.js:187-208 | `only` is taken verbatim and overrides the rest; otherwise a name is selected iff it is included (or, with no `include`, discovered) and not excluded; the result has no duplicates unless `only` or the discovered names have |
| Selection.OnlyWins | src/Promiseifyish.js:189-191 | an illustration of the precedence rule `Select` states for every input: with `only: ['a']`, `include: ['b']`, `exclude: ['a']` exactly `a` is selected |
| ObjectAdaptation.AdaptMembers | src/Promiseifyish.js:211-215 | the wrapping loop changes only the object it adapts: the heap keeps its size, every other object and every prototype link, and stays well-formed |
| ObjectAdaptation.AdaptMembersKeys | src/Promiseifyish.js:211-215 | for a duplicate-free list, the object owns a name after the loop iff it owned it before or the name is listed and read as callable |
| ObjectAdaptation.AdaptMembersEffect | src/Promiseifyish.js:211-215 | for a duplicate-free list, the own keys after the loop are the old keys plus the listed names whose value was callable; those hold the wrapper of the old value and every other own property is unchanged |
| ObjectAdaptation.AdaptMembersReads | src/Promiseifyish.js:211-215 | seen through reads, the listed callable members read as their wrappers and every other name reads as before |
| ObjectAdaptation.ReadsElsewhereUnchanged | src/Promiseifyish.js:212-213 | when only the adapted object's own properties change, and not under a name, that name reads as before at every object |
| ObjectAdaptation.ReadsThroughChanged | src/Promiseifyish.js:212-213 | a read at any object whose chain reaches the adapted object before any owner of the name finds what the adapted object now owns |
| ObjectAdaptation.RepeatedNameWrapsTwice | src/Promiseifyish.js:189-215 | a callable name listed twice by `only` ends up as the wrapper of its wrapper |
| ObjectAdaptation.NullRead | src/Promiseifyish.js:187-199 | on `null`, a non-empty `only` or (without `only`) a non-empty `include` makes the branch read its first name; `exclude` reads nothing |
| ObjectAdaptation.SelectedMeansChosen | src/Promiseifyish.js:184-215 | the wrapping loop over the selected names replaces a member iff it is callable and named by `only`, or else included (or discovered) and not excluded |
| ObjectAdaptation.AdaptInPlace | src/Promiseifyish.js:182-216 | `null` comes back unless the policy reads a member of it; for an object, the discovered names are exactly those offered by its chain, sorted; the same reference comes back, the heap is exactly the wrapping loop over the selected names, no other object or prototype link changes, every chosen member (inherited ones included) becomes an own wrapper and reads as it, every other name reads as before, and a well-formed heap stays well-formed |
| ObjectAdaptation.InstancesSeeWrappers | src/Promiseifyish.js:211-215 | after adapting an object in place, a name not chosen reads as before at every object, and a chosen one reads as its wrapper at every object whose read reaches the adapted one, such as its instances |
| ObjectAdaptation.OnlyWrapsInheritedMember | src/Promiseifyish.js:189-191 | `{only: ['toString']}` on `{}` reads the `toString` inherited from `Object.prototype`, gives the object an own wrapper of it and leaves `Object.prototype` unchanged |
| ObjectAdaptation.AdaptAll | dist/Promiseifyish.js:152-157 | the adapted copy owns exactly the source's own names |
| ObjectAdaptation.AdaptOwnNames | dist/Promiseifyish.js:152-157 | wrapping every own name of an object, in any duplicate-free order, leaves it owning `AdaptAll` of its properties |
| ObjectAdaptation.EnumerationOrderIrrelevant | dist/Promiseifyish.js:152-157 | wrapping the copy's own names in any duplicate-free order yields the same object: every own property, callable ones wrapped |
| ObjectAdaptation.CopyAdapted | dist/Promiseifyish.js:151-158 | the result is a new object after every existing one, inheriting from `Object.prototype` only, with the same own keys as the source (none for `null`), callable values wrapped and the rest copied; no existing object changes, and a well-formed heap stays well-formed when `Object.prototype` has no prototype of its own |
| Promiseifyish.Promiseify | src/Promiseifyish.js:90-221 | a function is wrapped; exactly the primitives other than `null` are refused, with "Cannot promiseify type: " and their type; `null` succeeds iff the policy reads no member; a plain object is adapted in place; a well-formed heap stays well-formed |
| Promiseifyish.Invoke | src/Promiseifyish.js:93-181 | the target is called with `{}` and the positional arguments plus the two synthesized callbacks; the promise goes through every settlement attempt in order; each fire runs the routed user callback with its arguments |
| Promiseifyish.CallbackSettlesWithArguments | src/Promiseifyish.js:164-176 | a success fire with B fulfils with the array B and calls the user success callback, if passed, with B; a failure fire rejects with B and calls the failure callback |
| CallbackSettlement.RedirectorFor | docs/scripts/dist/Promiseifyish.js:223-237 | a truthy configured redirector is used as is; otherwise the constant redirector of the slot that fired |
| CallbackSettlement.Route | docs/scripts/dist/Promiseifyish.js:219-240 | without a redirector option the slot decides; a configured callable decides by the truthiness of its answer and is called once with the fire's arguments; a truthy non-callable always leads to failure |
| CallbackSettlement.HandlerInvocationIsExpected | src/Promiseifyish.js:164-176 | since only callable callbacks are taken and `undefined` is not callable, `execute` calls the slot's callback exactly when one was passed |
| CallbackSettlement.OnFire | docs/scripts/dist/Promiseifyish.js:219-240 | one fire performs on the promise the settlement attempt its route decides |
| CallbackSettlement.OnFireCalls | src/Promiseifyish.js:164-176 | one fire appends the redirector call (if any) and then the routed user callback's call |
| CallbackSettlement.DeliverSettles | src/Promiseifyish.js:162-180 | delivering fires performs their settlement attempts in order |
| CallbackSettlement.DeliverCalls | src/Promiseifyish.js:164-176 | delivering fires invokes, in order, the user code each fire should invoke |
| CallbackSettlement.ExecutorSettles | src/Promiseifyish.js:162-180 | the executor's promise goes through the synchronous fires, a synchronous throw's rejection, then the later fires, in that order |
| CallbackSettlement.ExecutorCalls | src/Promiseifyish.js:162-180 | the executor invokes the user code of the synchronous fires, then of the later ones |
| CallbackSettlement.InvokeWithHooks | src/Promiseifyish.js:162-180 | the target is called once with receiver `{}` and exactly two arguments more than the positional ones; state and user calls are those of the attempts and fires in order |
| CallbackSettlement.SingleFire | src/Promiseifyish.js:164-176 | one fire settles by its slot with the argument array and runs only the matching user callback; a fire after a synchronous throw does not change the rejection |
| CallbackSettlement.ThrowRejects | src/Promiseifyish.js:178-179 | a target that throws before firing rejects the promise with the thrown value, whatever it fires later |
| RedirectingPromiseifyish.Normalize | docs/scripts/dist/Promiseifyish.js:130 | a passed options object is kept; an absent one is replaced by a fresh empty object; no existing options object changes |
| RedirectingPromiseifyish.Promiseify | docs/scripts/dist/Promiseifyish.js:128-284 | the store comes back normalised whatever the outcome; a function is wrapped around the normalised options object; exactly the primitives other than `null` are refused, naming their type; `null` succeeds iff the options read no member of it; an object is adapted in place with every member wrapper carrying that one options object |
| RedirectingPromiseifyish.BuildWithOutcomeRedirector | docs/scripts/dist/Promiseifyish.js:286-290 | on success and on a throw alike, the normalised options object (the caller's own when passed) holds the redirector and keeps its lists, and no other options object changes; the target is then handled as `RedirectingPromiseifyish.Promiseify` handles it |
| RedirectingPromiseifyish.NodeStyle | docs/scripts/dist/Promiseifyish.js:292-296 | on success and on a throw alike, the options object holds the `error => !error` redirector, keeps its lists and is the only one changed; functions, refused primitives, `null` and objects are handled as `RedirectingPromiseifyish.Promiseify` handles them |
| RedirectingPromiseifyish.NodeStyleWrapperSettles | docs/scripts/dist/Promiseifyish.js:219-240 | after `nodeStyle`, one fire is rejected with its arguments iff its first argument is truthy, and fulfilled with them otherwise, both as written and corrected; as written, the options object is left as it was |
| RedirectingPromiseifyish.Invoke | docs/scripts/dist/Promiseifyish.js:223-240 | the corrected reading of a call: as `Promiseifyish.Invoke`, with every fire routed by the redirector the options object holds and the options object never written |
| RedirectingPromiseifyish.RedirectorDecides | docs/scripts/dist/Promiseifyish.js:202-241 | with a callable redirector, a fire with B is fulfilled with B iff the redirector answers truthy, whichever callback fired, after one redirector call and then the routed user callback |
| RedirectingPromiseifyish.NonCallableRedirectorRejects | docs/scripts/dist/Promiseifyish.js:228 | a truthy redirector that is not callable makes every fire reject |
| RedirectingPromiseifyish.NodeStyleRoutes | docs/scripts/dist/Promiseifyish.js:292-296 | node style takes the success path exactly when the first callback argument is falsy |
| RedirectingPromiseifyish.FallbackFollowsSlot | docs/scripts/dist/Promiseifyish.js:223-240 | with no redirector option, `onSuccess` fulfils and `onFailure` rejects |
| RedirectingPromiseifyish.OnFireAsWritten | docs/scripts/dist/Promiseifyish.js:219-240 | the fire as written stores the fallback redirector into the shared options object when none was set, and settles as the fallback says |
| RedirectingPromiseifyish.DeliverAsWritten | docs/scripts/dist/Promiseifyish.js:219-240 | the fires as written change only the shared options object's redirector: nothing when one was configured, and once anything fired a redirector is stored |
| RedirectingPromiseifyish.ExecutorAsWritten | docs/scripts/dist/Promiseifyish.js:196-245 | the same for a whole executor, synchronous and later fires together |
| RedirectingPromiseifyish.DeliverAsWrittenConfigured | docs/scripts/dist/Promiseifyish.js:223-240 | with a configured redirector the writes change nothing and the fires are delivered as the corrected reading delivers them |
| RedirectingPromiseifyish.DeliverAsWrittenPins | docs/scripts/dist/Promiseifyish.js:223-240 | as written, the first fire pins its fallback into the options object and every fire, the first included, is delivered as the corrected reading delivers it under the pinned redirector |
| RedirectingPromiseifyish.ExecutorAsWrittenPins | docs/scripts/dist/Promiseifyish.js:196-245 | the executor as written is the corrected executor under the options its first fire pins |
| RedirectingPromiseifyish.InvokeAsWritten | docs/scripts/dist/Promiseifyish.js:133-245 | a call as written: the target call is the corrected one, the options object comes back holding the first fire's fallback when none was configured, and state and user calls are those of the attempts and fires under that stored redirector |
| RedirectingPromiseifyish.PinnedRoute | docs/scripts/dist/Promiseifyish.js:223-240 | a stored `trueRedirector` fulfils and a stored `falseRedirector` rejects every fire, after one redirector call and then the matching user callback |
| RedirectingPromiseifyish.StickyWithinCall | docs/scripts/dist/Promiseifyish.js:223-240 | as written, a target firing `onFailure(B1)` then `onSuccess(B2)` rejects with B1, runs the failure callback with B1 and again with B2, and leaves `falseRedirector` in the options object |
| RedirectingPromiseifyish.PinnedFalseRejects | docs/scripts/dist/Promiseifyish.js:223-240 | as written, with `falseRedirector` stored, an `onSuccess(B)` fire rejects with B and runs the failure callback |
| RedirectingPromiseifyish.StickyAcrossCalls | docs/scripts/dist/Promiseifyish.js:223-240 | as written, after a call whose first fire is `onFailure`, a later call of any wrapper sharing the options object whose target fires `onSuccess(B)` rejects with B and runs the failure callback |
| RedirectingPromiseifyish.FallbackIsNotSticky | docs/scripts/dist/Promiseifyish.js:223-240 | in the corrected reading, without a configured redirector, whatever earlier calls fired, an `onSuccess(B)` fire fulfils with B and runs the success callback |
| BuiltPromiseifyish.Promiseify | dist/Promiseifyish.js:68-162 | only `typeof` functions are wrapped; `null` and every object, even one inheriting from `Function.prototype`, yield a new adapted copy inheriting from `Object.prototype`; the rest is refused, naming its type; a well-formed heap stays well-formed when `Object.prototype` has no prototype of its own |
| BuiltPromiseifyish.Invoke | dist/Promiseifyish.js:70-150 | as `Promiseifyish.Invoke`, with the typeof-only `isFunction` deciding the split |
| BuiltPromiseifyish.SplitDiffersOnFunctionLikeObjects | dist/Promiseifyish.js:36-38 | a trailing object inheriting from `Function.prototype` is the success callback for the `instanceof` build and a positional argument here |
| Common.GetType | src/Common.js:11-34 | the ladder: undefined, null as 'object', booleans; then 'string' for 'length' without 'name' (before the number test); 'number' iff that fails and the value reads as a number; 'function' iff both names are owned and it does not |
| Common.AgreesWithTypeofOnPrimitives | src/Common.js:12-29 | the ladder agrees with `typeof` on undefined, null, booleans, numbers and strings, and on functions whose text does not read as a number |
| Common.DisagreesWithTypeofOnObjects | src/Common.js:21-33 | an object owning 'length' but not 'name' is a 'string'; one owning both that does not read as a number is a 'function' |
| Common.IsFunction | src/Common.js:44-46 | a callable whose text does not read as a number is a function; nothing but callables and objects is |
| Common.IsObject | src/Common.js:48-50 | `null` is an object, and so is every object that owns no `length` and does not read as a number; nothing but `null` and objects is |
| Common.FunctionAndObjectExclusive | src/Common.js:44-50 | `isFunction` and `isObject` never hold together; `null` is an object and not a function; `undefined` is not a function |
| LegacyPromiseify.IsCallable | src/Common.js:44-46 | the ladder's `isFunction`, and it never accepts `undefined` |
| LegacyPromiseify.Settled | src/Promiseify.js:87-93 | without handlers, a returned value fulfils with that value and a throw rejects with the thrown value |
| LegacyPromiseify.Invoke | src/Promiseify.js:8-94 | an object target (one the ladder calls a function because it owns `name` and `length`) is never called and the promise rejects with the TypeError of `fn.apply`; otherwise, with a callback, the target gets the positional arguments plus two synthesized callbacks and the callbacks settle the promise, and without, it gets exactly the caller's arguments, no user code runs, and its completion settles the promise |
| LegacyPromiseify.FirstArgumentOnly | src/Promiseify.js:70-86 | with handlers and a callable target, a fire with B settles with B[0] alone and calls the matching user handler with B[0] alone, and a failure with no failure callback calls no user code; an object target rejects with the TypeError and calls nothing |
| LegacyPromiseify.NameLengthRecordRejects | src/Common.js:30-31 | a plain record owning `name` and `length` whose text does not read as a number passes the ladder's `isFunction`, and calling its wrapper rejects with the TypeError and calls nothing, whatever it would fire |
| LegacyPromiseify.Promiseify | src/Promiseify.js:5-109 | what the ladder calls a function is wrapped; what it calls an object (`null` included) yields a new copy inheriting from `Object.prototype` with callable own members wrapped; the rest is refused with "Cannot promisify type: "; a well-formed heap stays well-formed when `Object.prototype` has no prototype of its own |
| LegacyPromiseify.ArrayLikeObjectsAreRefused | src/Common.js:21-24 | an object owning 'length' but not 'name' is neither a function nor an object, so the older build refuses it |

## Findings

| source | as written | input that shows it | evidently intended | confidence | as-written member | corrected member |
|---|---|---|---|---|---|---|
| docs/scripts/dist/Promiseifyish.js:223-240 | `options.outcomeRedirector = options.outcomeRedirector \|\| trueRedirector` (and `\|\| falseRedirector` in `onFailure`) stores the fallback into the options object that the wrapper and every sibling member share | a wrapper made without `outcomeRedirector`, called once with a target that fires `onFailure(B1)` and then again with a target that fires `onSuccess(B2)`: the second promise rejects with B2 | the fallback applies to the one fire, so `onSuccess` fulfils and `onFailure` rejects whenever no redirector was configured | medium (not executed) | RedirectingPromiseifyish.StickyAcrossCalls | RedirectingPromiseifyish.FallbackIsNotSticky |

`RedirectingPromiseifyish.InvokeAsWritten` models a call as written: its
fires thread the options store, and `RedirectingPromiseifyish.DeliverAsWrittenPins`
shows that the first fire pins its fallback for every later one.
`RedirectingPromiseifyish.StickyWithinCall` and
`RedirectingPromiseifyish.StickyAcrossCalls` exhibit the discrepancy within
one call and across two. The corrected reading (`CallbackSettlement.OnFire`
and `RedirectingPromiseifyish.Invoke`) reads the options object without
writing to it, and `RedirectingPromiseifyish.FallbackFollowsSlot` proves
that it settles by the slot that fired.

## Left out

- `Promiseify.chromeRuntimeAPIStyle` reads the ambient global `window.chrome.runtime.lastError`, so it is not modelled.
- Module-loading shims, the `_typeof`/Symbol polyfill and `VERSION` are packaging, so they are not modelled. Symbols are not among the modelled values.
- Event-loop timing and the promise job queue are not modelled. Settlement is a state machine, and the model does not say when reactions run.
- `Infinity` and `-Infinity` are not values of the model: numbers are `Num(real)` plus `NaN`. Every path treats them as it treats any other number (they are refused, and `getType` calls them 'number').
- Resolving with a thenable is not modelled. Every resolution value is treated as a plain value, so resolve fulfils at once.
- A user callback that throws is not modelled, because the code is silent on it and only the platform promise decides. A target firing several callbacks is modelled: the first settlement wins and every fire still runs the user code its route selects, which in the redirecting build as written is the route of the first fire's stored fallback.
- `Number.parseFloat`/`isNaN` of src/Common.js is the `parsesAsNumber` oracle for strings, functions and objects.
- Reflection is not modelled. Getters, setters, non-enumerable and non-writable properties, and `Object.assign` beyond copying own properties are all omitted. Own properties are plain maps. `getAllFunctionNames` captures the names of `Object.prototype` once, at load time; the model passes them as `objectNames` rather than reading them from the heap.
- `instanceof Function` is read from a flag on the object value (`Obj(ref, functionProto)`), not by walking the heap's prototype links to `Function.prototype`. No modelled operation changes a prototype link, so the flag is fixed per object; the model does not itself rule out two values for one reference that disagree on it.
- Receiver binding of `fn.apply(...)` inside user code is out of scope. A `Call` records the receiver the library passes, not what the callee does with it.
- Interleaving is not modelled. In the redirecting build, another call on the same options object may run between a call's synchronous and later fires; `RedirectingPromiseifyish.InvokeAsWritten` runs one call's fires together, and `RedirectingPromiseifyish.StickyAcrossCalls` chains whole calls.
- An options value that is a truthy primitive in the redirecting build is not modelled. In strict mode, writing `outcomeRedirector` onto it throws. Options are either absent or an options object in the store.
- StringOrder.Less: orders strings by Dafny `char` (Unicode scalar values), while `Array.prototype.sort` compares UTF-16 code units. The two differ only for names mixing supplementary-plane characters with characters from U+E000 to U+FFFF.
- ObjectAdaptation.AdaptInPlace: its read-level statement (`AdaptedInPlace`) assumes `only` lists no name twice. For a repeated name, only the exact-effect postcondition (`AdaptMembers` of the selected names) applies, and `RepeatedNameWrapsTwice` describes the result.
- LegacyPromiseify.FirstArgumentOnly: the default no-op handler of src/Promiseify.js:24-25 runs when no callback was passed for the slot. The model records no call for it, because it has no observable effect. A handler that the ladder calls a function without being callable (an object owning `name` and `length`) is recorded as called, where src/Promiseify.js:75 and :80 call it directly and throw a TypeError before `resolve` or `reject`; that throw goes back into the target, as for a user callback that throws.
- LegacyPromiseify.Invoke: an object target that owns or inherits a callable `apply` of its own would have that called by `fn.apply(...)`; the model rejects every object target with the TypeError.
- Invocation.Execute: for an object that inherits from `Function.prototype` without being callable, `isFunction` says yes and `fn.apply(...)` then throws a TypeError instead of calling. The model records a call and takes the `World`'s answer instead. The same holds for `CallbackSettlement.Route` when such an object is the configured redirector, and for the user callbacks it routes to in the builds that call them through `execute` (`CallbackSettlement.HandlerInvocation`; the older build calls them directly, see `LegacyPromiseify.FirstArgumentOnly`). Modelling the throw would mean modelling a synthesized callback that throws back into the target, which the model leaves out (see the line on user callbacks that throw).
- Promiseifyish.Promiseify: an object that inherits from `Function.prototype` without being callable is wrapped, as the code does. What calling that wrapper does (`apply` on a non-function throws a TypeError) is not modelled; the wrapper's call is recorded as made.

=== FILE: argument_split.dfy ===
/**
 * The heuristic every build applies to the arguments of a wrapped call: how
 * many trailing arguments are callbacks (none, one or two), and which.
 * It is parameterised by the build's `isFunction`.
 */
module ArgumentSplit {
  import opened Wrappers
  import opened JsValues

  /** The positional arguments and the detected success and failure callbacks. */
  datatype Split = Split(positional: seq<Value>, success: Option<Value>, failure: Option<Value>) {

    /** The detected callbacks, success before failure. */
    function Callbacks(): seq<Value> {
      (if success.Some? then [success.value] else []) + (if failure.Some? then [failure.value] else [])
    }
  }

  /** A classifier every build shares the property of: `undefined` is never callable. */
  ghost predicate Classifier(isCallable: Value -> bool) {
    !isCallable(Undefined)
  }

  /**
   * The split as the builds write it. The zero-argument test has no `else`,
   * so with no arguments control reaches the `else` of the one-argument test
   * and inspects `arguments[-1]` and `arguments[-2]`, which are `undefined`
   * and therefore remove nothing.
   */
  function SplitArguments(isCallable: Value -> bool, args: seq<Value>): (s: Split)
    requires Classifier(isCallable)
    // the positional arguments are a prefix and the callbacks exactly the removed suffix
    ensures s.positional + s.Callbacks() == args
    ensures s.failure.Some? ==> s.success.Some?
    ensures forall cb :: cb in s.Callbacks() ==> isCallable(cb)
    // no arguments: nothing is removed
    ensures |args| == 0 ==> s == Split([], None, None)
    // a sole argument is the success callback exactly when it is callable
    ensures |args| == 1 ==> s.failure.None? && (s.success.Some? <==> isCallable(args[0]))
    // two or more: the last two are both taken when both are callable, else the last alone when it is
    ensures |args| >= 1 ==> (s.success.Some? <==> isCallable(args[|args| - 1]))
    ensures |args| >= 2 ==> (s.failure.Some? <==> isCallable(args[|args| - 1]) && isCallable(args[|args| - 2]))
  {
    var n := |args|;
    if n == 1 then
      if isCallable(args[0]) then Split([], Some(args[0]), None) else Split(args, None, None)
    else
      var last := ArgAt(args, n - 1);
      var beforeLast := ArgAt(args, n - 2);
      if isCallable(last) && isCallable(beforeLast) then
        assert args == args[..n - 2] + [beforeLast, last];
        Split(args[..n - 2], Some(beforeLast), Some(last))
      else if isCallable(last) then
        assert args == args[..n - 1] + [last];
        Split(args[..n - 1], Some(last), None)
      else
        Split(args, None, None)
  }

  /** src/Promiseify.js's `hasHandlers`: set exactly when some callback was detected. */
  function HasHandlers(s: Split): bool {
    s.success.Some?
  }

  /**
   * `hasHandlers` holds iff at least one callback was detected, iff the
   * positional arguments are shorter than the input.
   */
  lemma HasHandlersIffCallback(isCallable: Value -> bool, args: seq<Value>)
    requires Classifier(isCallable)
    ensures HasHandlers(SplitArguments(isCallable, args)) <==> |SplitArguments(isCallable, args).Callbacks()| > 0
    ensures HasHandlers(SplitArguments(isCallable, args)) <==> |SplitArguments(isCallable, args).positional| < |args|
  {
    var s := SplitArguments(isCallable, args);
    assert |s.positional| + |s.Callbacks()| == |args| by {
      assert |s.positional + s.Callbacks()| == |args|;
    }
  }

  /**
   * The split is determined by its contract: any split that is a prefix plus
   * removed callable suffix and takes exactly the trailing callables the table
   * names equals `SplitArguments`.
   */
  lemma {:induction false} SplitIsTheTable(isCallable: Value -> bool, args: seq<Value>, t: Split)
    requires Classifier(isCallable)
    requires t.positional + t.Callbacks() == args
    requires t.failure.Some? ==> t.success.Some?
    requires |args| == 0 ==> t.success.None?
    requires |args| >= 1 ==> (t.success.Some? <==> isCallable(args[|args| - 1]))
    requires |args| == 1 ==> t.failure.None?
    requires |args| >= 2 ==> (t.failure.Some? <==> isCallable(args[|args| - 1]) && isCallable(args[|args| - 2]))
    ensures t == SplitArguments(isCallable, args)
  {
    var s := SplitArguments(isCallable, args);
    assert |t.Callbacks()| == |s.Callbacks()|;
    assert t.Callbacks() == args[|args| - |t.Callbacks()|..] && s.Callbacks() == args[|args| - |s.Callbacks()|..] by {
      assert |t.positional| + |t.Callbacks()| == |args| by {
        assert |t.positional + t.Callbacks()| == |args|;
      }
      assert |s.positional| + |s.Callbacks()| == |args| by {
        assert |s.positional + s.Callbacks()| == |args|;
      }
    }
    assert t.positional == s.positional;
    if t.success.Some? {
      if t.failure.Some? {
        assert t.Callbacks() == [t.success.value, t.failure.value];
        assert s.Callbacks() == [s.success.value, s.failure.value];
      } else {
        assert t.Callbacks() == [t.success.value];
        assert s.Callbacks() == [s.success.value];
      }
    }
  }
}

=== FILE: built_promiseifyish.dfy ===
/**
 * `Promiseify(fn)` of dist/Promiseifyish.js: `isFunction` is `typeof` alone,
 * callbacks settle with the array of their arguments, and an object yields
 * a shallow copy of its own properties with the callable ones wrapped.
 */
module BuiltPromiseifyish {
  import opened Wrappers
  import opened JsValues
  import opened ObjectAdaptation
  import opened ArgumentSplit
  import opened Invocation
  import opened CallbackSettlement
  import Classify

  /** `objectProto` is where `Object.prototype` lives, the prototype of every copy. */
  method Promiseify(h: Heap, target: Value, objectProto: Ref) returns (r: Result<(Heap, Value), Error>)
    requires target.Obj? ==> target.ref < |h|
    requires objectProto < |h|
    // only a value whose typeof is 'function' is wrapped
    ensures target.Fn? ==> r == Success((h, Fn(Wrapper(DistBuild, target, None))))
    // null and every object, even one inheriting from Function.prototype, yield a new object
    ensures (target.Null? || target.Obj?) ==> (r.Success? && r.value.1 == Obj(|h|, false) &&
      |r.value.0| == |h| + 1 && r.value.0[..|h|] == h && r.value.0[|h|].protos == [objectProto])
    ensures target.Null? ==> (r.Success? && r.value.0[|h|].own == map[])
    ensures target.Obj? ==> (r.Success? && r.value.0[|h|].own.Keys == h[target.ref].own.Keys &&
      forall n :: n in h[target.ref].own ==> (r.value.0[|h|].own[n] ==
        if h[target.ref].own[n].Fn? then Fn(Wrapper(DistBuild, h[target.ref].own[n], None)) else h[target.ref].own[n]))
    // everything else is refused, naming its type
    ensures !(target.Fn? || target.Null? || target.Obj?) ==>
      r == Failure(CannotPromiseify("Cannot promiseify type: " + Classify.TypeOf(target).Name()))
    ensures r.Success? && WellFormed(h) && h[objectProto].protos == [] ==> WellFormed(r.value.0)
  {
    if Classify.IsFunctionByTypeof(target) {
      r := Success((h, Fn(Wrapper(DistBuild, target, None))));
    } else if Classify.IsObject(target) {
      r := Success(CopyAdapted(h, target, Classify.IsFunctionByTypeof, DistBuild, objectProto));
    } else {
      r := Failure(CannotPromiseify("Cannot promiseify type: " + Classify.TypeOf(target).Name()));
    }
  }

  /** A call of the wrapper: the typeof-only `isFunction` splits the arguments. */
  function Invoke(world: World, target: Value, args: seq<Value>, b: Behaviour): (run: (Call, Progress))
    ensures run.0 == Call(target, FreshEmptyObject, SplitArguments(Classify.IsFunctionByTypeof, args).positional + Hooks)
    ensures run.1.state == Deferred.PerformAll(Deferred.Pending, BehaviourAttempts(ArrayStyle, world, b))
    ensures run.1.calls == FireCalls(ArrayStyle, world, SplitArguments(Classify.IsFunctionByTypeof, args), b.sync + b.later)
  {
    InvokeWithHooks(ArrayStyle, Classify.IsFunctionByTypeof, world, target, args, b)
  }

  /**
   * The builds split differently: a trailing object that inherits from
   * Function.prototype, after an argument neither build calls callable, is
   * the success callback for src/Promiseifyish.js and a positional argument here.
   */
  lemma SplitDiffersOnFunctionLikeObjects(x: Value, r: Ref)
    requires !Classify.IsFunction(x)
    ensures SplitArguments(Classify.IsFunction, [x, Obj(r, true)]).success == Some(Obj(r, true))
    ensures SplitArguments(Classify.IsFunctionByTypeof, [x, Obj(r, true)]) == Split([x, Obj(r, true)], None, None)
  {
  }
}

=== FILE: callback_settlement.dfy ===
/**
 * A wrapped call with synthesized callbacks: split the arguments, call the
 * target with the positional arguments plus `onSuccess` and `onFailure`, and
 * settle the promise from whichever of them the target fires. The builds
 * differ only in how a fire is turned into a settlement, which `Style` names.
 */
module CallbackSettlement {
  import opened Wrappers
  import opened JsValues
  import opened Deferred
  import opened ArgumentSplit
  import opened Invocation
  import Classify
  import Sequences

  /**
   * ArrayStyle: src/Promiseifyish.js and dist/Promiseifyish.js `execute` the
   * slot's user callback with every argument and settle with the argument array.
   * Redirected: docs/scripts/dist/Promiseifyish.js first asks the outcome
   * redirector (`configured` is the value of `options.outcomeRedirector`) which
   * path to take, then proceeds as ArrayStyle on that path.
   * FirstArgument: src/Promiseify.js calls the handler directly with the first
   * argument only and settles with that single value.
   */
  datatype Style = ArrayStyle | Redirected(configured: Value) | FirstArgument

  /** The user code invoked so far and the promise's state. */
  datatype Progress = Progress(calls: seq<Call>, state: Settlement<Payload>)

  /** The user callback that belongs to a slot, if one was passed. */
  function HandlerFor(s: Split, slot: Slot): Option<Value> {
    if slot == SuccessSlot then s.success else s.failure
  }

  /** The call `execute` made, as a list of at most one call. */
  function CallsOf(e: Execution): seq<Call> {
    if e.call.Some? then [e.call.value] else []
  }

  /**
   * `options.outcomeRedirector || trueRedirector` in `onSuccess`, `|| falseRedirector`
   * in `onFailure`: a configured (truthy) redirector, else a constant that
   * answers with the slot that fired.
   */
  function RedirectorFor(configured: Value, slot: Slot): (r: Value)
    ensures Truthy(configured) ==> r == configured
    ensures !Truthy(configured) ==> r == Fn(if slot == SuccessSlot then TrueRedirector else FalseRedirector)
  {
    if Truthy(configured) then configured
    else if slot == SuccessSlot then Fn(TrueRedirector)
    else Fn(FalseRedirector)
  }

  /** Which path a fire takes (true for success) and the redirector call it made. */
  function Route(style: Style, world: World, f: Fire): (route: (bool, seq<Call>))
    ensures !style.Redirected? ==> route == (f.slot == SuccessSlot, [])
    // without a configured redirector the slot that fired decides
    ensures style.Redirected? && !Truthy(style.configured) ==> route.0 == (f.slot == SuccessSlot)
    // a configured callable redirector decides, whichever slot fired
    ensures style.Redirected? && Truthy(style.configured) && Classify.IsFunction(style.configured) ==>
      route.0 == Truthy(Apply(world, style.configured, f.args)) &&
      route.1 == [Call(style.configured, FreshEmptyObject, f.args)]
    // `execute` answers null for a configured value that is not callable: always failure
    ensures style.Redirected? && Truthy(style.configured) && !Classify.IsFunction(style.configured) ==>
      route == (false, [])
  {
    match style
    case Redirected(configured) =>
      var e := Execute(Classify.IsFunction, world, RedirectorFor(configured, f.slot), f.args, Undefined);
      (Truthy(e.result), CallsOf(e))
    case _ => (f.slot == SuccessSlot, [])
  }

  /** The slot a fire is routed to. */
  function RoutedSlot(style: Style, world: World, f: Fire): Slot {
    if Route(style, world, f).0 then SuccessSlot else FailureSlot
  }

  /** The value the promise settles with. */
  function PayloadOf(style: Style, args: seq<Value>): Payload {
    if style.FirstArgument? then Plain(ArgAt(args, 0)) else ArgArray(args)
  }

  /** How the build invokes the routed user callback, as the code writes it. */
  function HandlerInvocation(style: Style, isCallable: Value -> bool, world: World, s: Split, slot: Slot, args: seq<Value>): seq<Call> {
    if style.FirstArgument? then
      (if HandlerFor(s, slot).Some? then [Call(HandlerFor(s, slot).value, Bound(Undefined), [ArgAt(args, 0)])] else [])
    else
      CallsOf(Execute(isCallable, world, HandlerFor(s, slot).GetOr(Undefined), args, Undefined))
  }

  /**
   * The user-callback call a routed fire should make: the slot's callback,
   * if one was passed, with the fire's arguments (only the first, for
   * FirstArgument) and the build's receiver.
   */
  function ExpectedHandlerCall(style: Style, s: Split, slot: Slot, args: seq<Value>): seq<Call> {
    match HandlerFor(s, slot)
    case Some(h) =>
      if style.FirstArgument? then [Call(h, Bound(Undefined), [ArgAt(args, 0)])] else [Call(h, FreshEmptyObject, args)]
    case None => []
  }

  /**
   * Because the split keeps only callable callbacks and `undefined` is never
   * callable, `execute` never skips a passed callback and never calls for an
   * absent one.
   */
  lemma HandlerInvocationIsExpected(style: Style, isCallable: Value -> bool, world: World, s: Split, slot: Slot, args: seq<Value>)
    requires Classifier(isCallable)
    requires forall cb :: cb in s.Callbacks() ==> isCallable(cb)
    ensures HandlerInvocation(style, isCallable, world, s, slot, args) == ExpectedHandlerCall(style, s, slot, args)
  {
    assert HandlerFor(s, slot).Some? ==> HandlerFor(s, slot).value in s.Callbacks();
  }

  /** `onSuccess(...B)` or `onFailure(...B)`. */
  function OnFire(style: Style, isCallable: Value -> bool, world: World, s: Split, p: Progress, f: Fire): (p': Progress)
    ensures p'.state == Perform(p.state, AttemptOf(style, world, f))
  {
    var route := Route(style, world, f);
    var slot := RoutedSlot(style, world, f);
    var payload := PayloadOf(style, f.args);
    Progress(
      p.calls + route.1 + HandlerInvocation(style, isCallable, world, s, slot, f.args),
      if route.0 then Resolve(p.state, payload) else RejectWith(p.state, payload))
  }

  function Deliver(style: Style, isCallable: Value -> bool, world: World, s: Split, p: Progress, fires: seq<Fire>): Progress
    decreases |fires|
  {
    if |fires| == 0 then p else Deliver(style, isCallable, world, s, OnFire(style, isCallable, world, s, p, fires[0]), fires[1..])
  }

  /**
   * The promise executor: the target fires callbacks synchronously, a throw
   * from it rejects, and callbacks fired later still run.
   */
  function Executor(style: Style, isCallable: Value -> bool, world: World, s: Split, b: Behaviour): Progress {
    var p := Deliver(style, isCallable, world, s, Progress([], Pending), b.sync);
    var p' := if b.completion.Threw? then p.(state := RejectWith(p.state, Plain(b.completion.error))) else p;
    Deliver(style, isCallable, world, s, p', b.later)
  }

  /** The settlement attempt a fire makes. */
  function AttemptOf(style: Style, world: World, f: Fire): Attempt<Payload> {
    if Route(style, world, f).0 then Fulfil(PayloadOf(style, f.args)) else Reject(PayloadOf(style, f.args))
  }

  function AttemptsOf(style: Style, world: World, fires: seq<Fire>): (a: seq<Attempt<Payload>>)
    ensures |a| == |fires| && forall i :: 0 <= i < |fires| ==> a[i] == AttemptOf(style, world, fires[i])
  {
    seq(|fires|, i requires 0 <= i < |fires| => AttemptOf(style, world, fires[i]))
  }

  /** Every settlement attempt of a behaviour, in the order the promise sees them. */
  function BehaviourAttempts(style: Style, world: World, b: Behaviour): seq<Attempt<Payload>> {
    AttemptsOf(style, world, b.sync) + (if b.completion.Threw? then [Reject(Plain(b.completion.error))] else []) +
    AttemptsOf(style, world, b.later)
  }

  /** The user code a fire should invoke: the redirector, then the routed callback. */
  function FireCall(style: Style, world: World, s: Split, f: Fire): seq<Call> {
    Route(style, world, f).1 + ExpectedHandlerCall(style, s, RoutedSlot(style, world, f), f.args)
  }

  /** The user code a sequence of fires should invoke, fire by fire. */
  function FireCalls(style: Style, world: World, s: Split, fires: seq<Fire>): seq<Call>
    decreases |fires|
  {
    if |fires| == 0 then []
    else
      FireCall(style, world, s, fires[0]) + FireCalls(style, world, s, fires[1..])
  }

  /** Delivering fires drives the promise through the resolving functions' state machine. */
  lemma {:induction false} DeliverSettles(style: Style, isCallable: Value -> bool, world: World, s: Split, p: Progress, fires: seq<Fire>)
    ensures Deliver(style, isCallable, world, s, p, fires).state == PerformAll(p.state, AttemptsOf(style, world, fires))
    decreases |fires|
  {
    if |fires| > 0 {
      DeliverSettles(style, isCallable, world, s, OnFire(style, isCallable, world, s, p, fires[0]), fires[1..]);
      assert AttemptsOf(style, world, fires)[1..] == AttemptsOf(style, world, fires[1..]);
    }
  }

  /** Each fire invokes exactly the user code `FireCalls` lists, in order. */
  lemma {:induction false} DeliverCalls(style: Style, isCallable: Value -> bool, world: World, s: Split, p: Progress, fires: seq<Fire>)
    requires Classifier(isCallable)
    requires forall cb :: cb in s.Callbacks() ==> isCallable(cb)
    ensures Deliver(style, isCallable, world, s, p, fires).calls == p.calls + FireCalls(style, world, s, fires)
    decreases |fires|
  {
    if |fires| > 0 {
      var f := fires[0];
      var p' := OnFire(style, isCallable, world, s, p, f);
      var first := OnFireCalls(style, isCallable, world, s, p, f);
      assert Deliver(style, isCallable, world, s, p, fires) == Deliver(style, isCallable, world, s, p', fires[1..]);
      DeliverCalls(style, isCallable, world, s, p', fires[1..]);
      var rest := FireCalls(style, world, s, fires[1..]);
      assert FireCalls(style, world, s, fires) == first + rest;
      Sequences.AppendAssoc(p.calls, first, rest);
    }
  }

  /** One fire appends its redirector call and the expected handler call; `first` is what it appended. */
  lemma OnFireCalls(style: Style, isCallable: Value -> bool, world: World, s: Split, p: Progress, f: Fire) returns (first: seq<Call>)
    requires Classifier(isCallable)
    requires forall cb :: cb in s.Callbacks() ==> isCallable(cb)
    ensures first == FireCall(style, world, s, f)
    ensures OnFire(style, isCallable, world, s, p, f).calls == p.calls + first
  {
    var slot := RoutedSlot(style, world, f);
    HandlerInvocationIsExpected(style, isCallable, world, s, slot, f.args);
    first := Route(style, world, f).1 + ExpectedHandlerCall(style, s, slot, f.args);
  }

  lemma {:induction false} FireCallsAppend(style: Style, world: World, s: Split, a: seq<Fire>, b: seq<Fire>)
    ensures FireCalls(style, world, s, a + b) == FireCalls(style, world, s, a) + FireCalls(style, world, s, b)
    decreases |a|
  {
    if |a| > 0 {
      assert (a + b)[0] == a[0];
      assert (a + b)[1..] == a[1..] + b;
      FireCallsAppend(style, world, s, a[1..], b);
      Sequences.AppendAssoc(FireCall(style, world, s, a[0]), FireCalls(style, world, s, a[1..]), FireCalls(style, world, s, b));
    } else {
      assert a + b == b;
    }
  }

  /** The executor drives the promise through every attempt of the behaviour, in order. */
  lemma ExecutorSettles(style: Style, isCallable: Value -> bool, world: World, s: Split, b: Behaviour)
    ensures Executor(style, isCallable, world, s, b).state == PerformAll(Pending, BehaviourAttempts(style, world, b))
  {
    var p := Deliver(style, isCallable, world, s, Progress([], Pending), b.sync);
    var p' := if b.completion.Threw? then p.(state := RejectWith(p.state, Plain(b.completion.error))) else p;
    DeliverSettles(style, isCallable, world, s, Progress([], Pending), b.sync);
    DeliverSettles(style, isCallable, world, s, p', b.later);
    var throwAttempt := if b.completion.Threw? then [Reject(Plain(b.completion.error))] else [];
    PerformAllAppend(Pending, AttemptsOf(style, world, b.sync), throwAttempt);
    PerformAllAppend(Pending, AttemptsOf(style, world, b.sync) + throwAttempt, AttemptsOf(style, world, b.later));
  }

  /** The executor invokes the user code of every fire, synchronous ones first. */
  lemma ExecutorCalls(style: Style, isCallable: Value -> bool, world: World, s: Split, b: Behaviour)
    requires Classifier(isCallable)
    requires forall cb :: cb in s.Callbacks() ==> isCallable(cb)
    ensures Executor(style, isCallable, world, s, b).calls == FireCalls(style, world, s, b.sync + b.later)
  {
    var p := Deliver(style, isCallable, world, s, Progress([], Pending), b.sync);
    var p' := if b.completion.Threw? then p.(state := RejectWith(p.state, Plain(b.completion.error))) else p;
    assert Executor(style, isCallable, world, s, b) == Deliver(style, isCallable, world, s, p', b.later);
    assert p'.calls == p.calls;
    DeliverCalls(style, isCallable, world, s, Progress([], Pending), b.sync);
    Sequences.EmptyAppend(FireCalls(style, world, s, b.sync));
    DeliverCalls(style, isCallable, world, s, p', b.later);
    FireCallsAppend(style, world, s, b.sync, b.later);
  }

  /**
   * A wrapped call of a build with synthesized callbacks: the target is
   * called once, with receiver `{}`, the positional arguments and exactly two
   * more; the promise follows the first settlement attempt; every fire runs
   * the user code `FireCalls` lists.
   */
  function InvokeWithHooks(style: Style, isCallable: Value -> bool, world: World, target: Value, args: seq<Value>, b: Behaviour): (run: (Call, Progress))
    requires Classifier(isCallable)
    ensures run.0 == Call(target, FreshEmptyObject, SplitArguments(isCallable, args).positional + Hooks)
    ensures |run.0.args| == |SplitArguments(isCallable, args).positional| + 2
    ensures run.1.state == PerformAll(Pending, BehaviourAttempts(style, world, b))
    ensures run.1.calls == FireCalls(style, world, SplitArguments(isCallable, args), b.sync + b.later)
  {
    var s := SplitArguments(isCallable, args);
    ExecutorSettles(style, isCallable, world, s, b);
    ExecutorCalls(style, isCallable, world, s, b);
    (Call(target, FreshEmptyObject, s.positional + Hooks), Executor(style, isCallable, world, s, b))
  }

  /**
   * The array-settling builds when the target fires one callback with `B`: a
   * success fire fulfils with the array `B` and calls the success callback (if
   * passed) with `B`; a failure fire rejects with `B` and calls the failure
   * callback. A fire after a synchronous throw changes nothing.
   */
  lemma SingleFire(isCallable: Value -> bool, world: World, target: Value, args: seq<Value>, f: Fire, c: Completion, sync: bool)
    requires Classifier(isCallable)
    ensures var b := if sync then Behaviour([f], c, []) else Behaviour([], c, [f]);
      var run := InvokeWithHooks(ArrayStyle, isCallable, world, target, args, b);
      var s := SplitArguments(isCallable, args);
      (sync || c.Returned? ==>
        run.1.state == (if f.slot == SuccessSlot then Fulfilled(ArgArray(f.args)) else Rejected(ArgArray(f.args)))) &&
      (!sync && c.Threw? ==> run.1.state == Rejected(Plain(c.error))) &&
      run.1.calls == (if HandlerFor(s, f.slot).Some? then [Call(HandlerFor(s, f.slot).value, FreshEmptyObject, f.args)] else [])
  {
    var b := if sync then Behaviour([f], c, []) else Behaviour([], c, [f]);
    var s := SplitArguments(isCallable, args);
    FirstAttemptWins(BehaviourAttempts(ArrayStyle, world, b));
    assert b.sync + b.later == [f];
    OneFireCalls(ArrayStyle, world, s, f);
  }

  /** The user code of a single fire. */
  lemma OneFireCalls(style: Style, world: World, s: Split, f: Fire)
    ensures FireCalls(style, world, s, [f]) == FireCall(style, world, s, f)
  {
    assert [f][1..] == [];
  }

  /** A synchronous throw before any callback rejects with the thrown value; later fires change nothing. */
  lemma ThrowRejects(style: Style, isCallable: Value -> bool, world: World, target: Value, args: seq<Value>, e: Value, later: seq<Fire>)
    requires Classifier(isCallable)
    ensures InvokeWithHooks(style, isCallable, world, target, args, Behaviour([], Threw(e), later)).1.state == Rejected(Plain(e))
  {
    FirstAttemptWins(BehaviourAttempts(style, world, Behaviour([], Threw(e), later)));
  }
}

=== FILE: classify.dfy ===
/**
 * The `typeof`-based classification used by the Promiseifyish builds:
 * `getType`, `isFunction`, `isObject` and `execute`.
 */
module Classify {
  import opened JsValues

  /** The results of `typeof` that the model's values can produce. */
  datatype TypeTag = UndefinedType | ObjectType | BooleanType | NumberType | StringType | FunctionType {

    /** The string `typeof` returns. */
    function Name(): string {
      match this
      case UndefinedType => "undefined"
      case ObjectType => "object"
      case BooleanType => "boolean"
      case NumberType => "number"
      case StringType => "string"
      case FunctionType => "function"
    }
  }

  /** `typeof v` (ECMA-262, section 13.5.3, "The typeof Operator"). */
  function TypeOf(v: Value): (t: TypeTag)
    ensures t == FunctionType <==> v.Fn?
    ensures t == ObjectType <==> v.Null? || v.Obj?
  {
    match v
    case Undefined => UndefinedType
    case Null => ObjectType
    case Bool(_) => BooleanType
    case Num(_) => NumberType
    case NaN => NumberType
    case Str(_) => StringType
    case Fn(_) => FunctionType
    case Obj(_, _) => ObjectType
  }

  /**
   * `isFunction` of src/Promiseifyish.js and the redirecting build:
   * `'function' === typeof v || v instanceof Function`.
   */
  predicate IsFunction(v: Value)
    ensures v.Fn? ==> IsFunction(v)
    ensures IsFunction(v) ==> v.Fn? || v.Obj?
    ensures v.Obj? ==> (IsFunction(v) <==> v.functionProto)
  {
    TypeOf(v) == FunctionType || (v.Obj? && v.functionProto)
  }

  /** `isFunction` of dist/Promiseifyish.js: `'function' === typeof v` only. */
  predicate IsFunctionByTypeof(v: Value)
    ensures IsFunctionByTypeof(v) <==> v.Fn?
  {
    TypeOf(v) == FunctionType
  }

  /** `isObject`: `'object' === typeof v`, so `null` counts as an object. */
  predicate IsObject(v: Value)
    ensures IsObject(v) <==> v.Null? || v.Obj?
  {
    TypeOf(v) == ObjectType
  }

  /**
   * The two `isFunction` builds disagree exactly on objects that inherit from
   * `Function.prototype` without being callable.
   */
  lemma IsFunctionBuildsDiffer(v: Value)
    ensures IsFunction(v) != IsFunctionByTypeof(v) <==> v.Obj? && v.functionProto
    ensures IsFunctionByTypeof(v) ==> IsFunction(v)
  {
  }

  /** Every callable value is truthy, and neither `undefined` nor `null` is callable. */
  lemma CallableIsTruthy(v: Value)
    ensures IsFunction(v) ==> Truthy(v)
    ensures !IsFunction(Undefined) && !IsFunction(Null)
  {
  }

  /**
   * Under the typeof-only build a value is never both a function and an
   * object; under the `instanceof` build an object inheriting from
   * `Function.prototype` is both.
   */
  lemma FunctionAndObjectOverlap(v: Value)
    ensures !(IsFunctionByTypeof(v) && IsObject(v))
    ensures IsFunction(v) && IsObject(v) <==> v.Obj? && v.functionProto
  {
  }
}

=== FILE: common.dfy ===
/**
 * The classification ladder of src/Common.js, used by src/Promiseify.js.
 * It does not consult `typeof`; it probes own property names and whether the
 * value reads as a number.
 */
module Common {
  import opened JsValues
  import Classify

  /**
   * What `Object.getOwnPropertyNames(v)` reports for the names the ladder
   * inspects. A string owns 'length' (and its index keys, which are never
   * 'name'); a function owns 'length' and 'name'; a number owns nothing; an
   * object owns its own keys. A reference outside the heap owns nothing.
   */
  function OwnPropertyNames(h: Heap, v: Value): set<string> {
    match v
    case Str(_) => {"length"}
    case Fn(_) => {"length", "name"}
    case Obj(r, _) => if r < |h| then h[r].own.Keys else {}
    case _ => {}
  }

  /**
   * `Number.isNaN(v) || !isNaN(Number.parseFloat(v))`. For numbers the answer
   * is always yes; for strings, functions and objects it depends on the text
   * their conversion to string produces, which `parsesAsNumber` supplies.
   */
  function ReadsAsNumber(v: Value, parsesAsNumber: Value -> bool): bool {
    match v
    case Num(_) => true
    case NaN => true
    case Str(_) => parsesAsNumber(v)
    case Fn(_) => parsesAsNumber(v)
    case Obj(_, _) => parsesAsNumber(v)
    case _ => false
  }

  /** The ladder of `getType`, over the two probes it makes. */
  function GetType(v: Value, own: set<string>, readsAsNumber: bool): (t: Classify.TypeTag)
    ensures v.Undefined? ==> t == Classify.UndefinedType
    ensures v.Null? ==> t == Classify.ObjectType
    ensures v.Bool? ==> t == Classify.BooleanType
    // the string test comes first: it wins even when the value reads as a number
    ensures !(v.Undefined? || v.Null? || v.Bool?) && "length" in own && "name" !in own ==>
      t == Classify.StringType
    ensures t == Classify.NumberType <==>
      !(v.Undefined? || v.Null? || v.Bool?) && !("length" in own && "name" !in own) && readsAsNumber
    ensures t == Classify.FunctionType <==>
      !(v.Undefined? || v.Null? || v.Bool?) && !readsAsNumber && "length" in own && "name" in own
    ensures t == Classify.UndefinedType ==> v.Undefined?
  {
    if v == Undefined then Classify.UndefinedType
    else if v == Null then Classify.ObjectType
    else if v == Bool(true) || v == Bool(false) then Classify.BooleanType
    else if "length" in own && "name" !in own then Classify.StringType
    else if readsAsNumber then Classify.NumberType
    else if "name" in own && "length" in own then Classify.FunctionType
    else Classify.ObjectType
  }

  /** `getType(v)` with the probes taken from the heap and the number oracle. */
  function TypeOfValue(h: Heap, parsesAsNumber: Value -> bool, v: Value): Classify.TypeTag {
    GetType(v, OwnPropertyNames(h, v), ReadsAsNumber(v, parsesAsNumber))
  }

  /** `isFunction` of src/Common.js. */
  predicate IsFunction(h: Heap, parsesAsNumber: Value -> bool, v: Value)
    ensures v.Fn? && !parsesAsNumber(v) ==> IsFunction(h, parsesAsNumber, v)
    ensures IsFunction(h, parsesAsNumber, v) ==> v.Fn? || v.Obj?
  {
    TypeOfValue(h, parsesAsNumber, v) == Classify.FunctionType
  }

  /** `isObject` of src/Common.js. */
  predicate IsObject(h: Heap, parsesAsNumber: Value -> bool, v: Value)
    ensures v.Null? ==> IsObject(h, parsesAsNumber, v)
    ensures v.Obj? && "length" !in OwnPropertyNames(h, v) && !parsesAsNumber(v) ==> IsObject(h, parsesAsNumber, v)
    ensures IsObject(h, parsesAsNumber, v) ==> v.Null? || v.Obj?
  {
    TypeOfValue(h, parsesAsNumber, v) == Classify.ObjectType
  }

  /**
   * The ladder agrees with `typeof` on undefined, null, booleans, numbers and
   * strings whatever the oracle says, and on functions whose text does not
   * read as a number.
   */
  lemma AgreesWithTypeofOnPrimitives(h: Heap, parsesAsNumber: Value -> bool, v: Value)
    ensures !(v.Fn? || v.Obj?) ==> TypeOfValue(h, parsesAsNumber, v) == Classify.TypeOf(v)
    ensures v.Fn? && !parsesAsNumber(v) ==> TypeOfValue(h, parsesAsNumber, v) == Classify.FunctionType
  {
  }

  /**
   * Where the ladder departs from `typeof`: an object owning 'length' but not
   * 'name' (an array, say) is a 'string', and a plain object owning both is a
   * 'function' unless it reads as a number.
   */
  lemma DisagreesWithTypeofOnObjects(h: Heap, parsesAsNumber: Value -> bool, r: Ref, p: bool)
    requires r < |h|
    ensures "length" in h[r].own && "name" !in h[r].own ==>
      TypeOfValue(h, parsesAsNumber, Obj(r, p)) == Classify.StringType
    ensures "length" in h[r].own && "name" in h[r].own && !parsesAsNumber(Obj(r, p)) ==>
      IsFunction(h, parsesAsNumber, Obj(r, p))
  {
  }

  /** `isFunction` and `isObject` compare one tag, so they never hold together; `null` is an object. */
  lemma FunctionAndObjectExclusive(h: Heap, parsesAsNumber: Value -> bool, v: Value)
    ensures !(IsFunction(h, parsesAsNumber, v) && IsObject(h, parsesAsNumber, v))
    ensures IsObject(h, parsesAsNumber, Null) && !IsFunction(h, parsesAsNumber, Null)
    ensures !IsFunction(h, parsesAsNumber, Undefined)
  {
  }
}

=== FILE: deferred.dfy ===
/**
 * The deferred result: a promise as a Pending -> Fulfilled | Rejected state
 * machine driven by its resolve and reject functions.
 *
 * ECMA-262, section 27.2.1.3 ("CreateResolvingFunctions"), gives the two
 * functions a shared [[AlreadyResolved]] record: whichever runs first sets
 * it, and every later call returns without effect. Resolving with a value
 * that is not a thenable fulfils at once, so for such values the flag is set
 * exactly when the state has left Pending.
 */
module Deferred {

  datatype Settlement<T> = Pending | Fulfilled(value: T) | Rejected(reason: T)

  /** One call of a resolving function. */
  datatype Attempt<T> = Fulfil(value: T) | Reject(reason: T)

  /** The promise resolve function (non-thenable resolution). */
  function Resolve<T>(s: Settlement<T>, v: T): (t: Settlement<T>)
    ensures t != Pending
    ensures s.Pending? ==> t.Fulfilled? && t.value == v
    ensures !s.Pending? ==> t == s
  {
    if s.Pending? then Fulfilled(v) else s
  }

  /** The promise reject function. */
  function RejectWith<T>(s: Settlement<T>, v: T): (t: Settlement<T>)
    ensures t != Pending
    ensures s.Pending? ==> t.Rejected? && t.reason == v
    ensures !s.Pending? ==> t == s
  {
    if s.Pending? then Rejected(v) else s
  }

  /** The state an attempt settles a pending promise into. */
  function Outcome<T>(a: Attempt<T>): Settlement<T> {
    match a
    case Fulfil(v) => Fulfilled(v)
    case Reject(v) => Rejected(v)
  }

  function Perform<T>(s: Settlement<T>, a: Attempt<T>): Settlement<T> {
    match a
    case Fulfil(v) => Resolve(s, v)
    case Reject(v) => RejectWith(s, v)
  }

  /** The state after a sequence of attempts, in order. */
  function PerformAll<T>(s: Settlement<T>, attempts: seq<Attempt<T>>): Settlement<T>
    decreases |attempts|
  {
    if |attempts| == 0 then s else PerformAll(Perform(s, attempts[0]), attempts[1..])
  }

  /** A settled promise ignores every later attempt. */
  lemma {:induction false} SettledIsFinal<T>(s: Settlement<T>, attempts: seq<Attempt<T>>)
    requires !s.Pending?
    ensures PerformAll(s, attempts) == s
    decreases |attempts|
  {
    if |attempts| > 0 {
      SettledIsFinal(Perform(s, attempts[0]), attempts[1..]);
    }
  }

  /** First settlement wins: the first attempt alone decides the final state. */
  lemma {:induction false} FirstAttemptWins<T>(attempts: seq<Attempt<T>>)
    ensures |attempts| == 0 ==> PerformAll(Pending, attempts) == Pending
    ensures |attempts| > 0 ==> PerformAll(Pending, attempts) == Outcome(attempts[0])
  {
    if |attempts| > 0 {
      SettledIsFinal(Perform(Pending, attempts[0]), attempts[1..]);
    }
  }

  /** Attempts may be split anywhere. */
  lemma {:induction false} PerformAllAppend<T>(s: Settlement<T>, a: seq<Attempt<T>>, b: seq<Attempt<T>>)
    ensures PerformAll(s, a + b) == PerformAll(PerformAll(s, a), b)
    decreases |a|
  {
    if |a| > 0 {
      assert (a + b)[1..] == a[1..] + b;
      PerformAllAppend(Perform(s, a[0]), a[1..], b);
    } else {
      assert a + b == b;
    }
  }
}

=== FILE: invocation.dfy ===
/**
 * What a wrapped call does, observed from outside: the call it makes to the
 * target, the user callbacks it invokes, and the state of the promise it
 * returned. The target itself is opaque; its `Behaviour` says which of the
 * synthesized callbacks it fires, when, and whether it throws.
 */
module Invocation {
  import opened Wrappers
  import opened JsValues

  /** The `this` of a call: `execute`'s `context || {}` and `target.apply({}, …)` pass a fresh `{}`. */
  datatype Receiver = FreshEmptyObject | Bound(receiver: Value)

  /** One invocation of a callable. */
  datatype Call = Call(callee: Value, receiver: Receiver, args: seq<Value>)

  /** What calling a user or host function returns; the model does not look inside it. */
  type World = (Value, seq<Value>) -> Value

  /** The value a call returns: known for the built-in redirectors, the world's answer otherwise. */
  function Apply(world: World, f: Value, args: seq<Value>): Value {
    match f
    case Fn(TrueRedirector) => Bool(true)
    case Fn(FalseRedirector) => Bool(false)
    case Fn(NodeStyleRedirector) => Bool(!Truthy(ArgAt(args, 0)))
    case _ => world(f, args)
  }

  /** The result of `execute` and the call it made, if any. */
  datatype Execution = Execution(result: Value, call: Option<Call>)

  /** `execute(fn, args, context)`: call `fn` when it is callable, else return `null`. */
  function Execute(isCallable: Value -> bool, world: World, fn: Value, args: seq<Value>, context: Value): (e: Execution)
    ensures !isCallable(fn) ==> e.result == Null && e.call.None?
    ensures isCallable(fn) ==> e.call.Some? && e.call.value.callee == fn && e.call.value.args == args
    ensures isCallable(fn) ==> e.result == Apply(world, fn, args)
    ensures e.call.Some? ==> (e.call.value.receiver == FreshEmptyObject <==> !Truthy(context))
  {
    if isCallable(fn) then
      Execution(Apply(world, fn, args), Some(Call(fn, if Truthy(context) then Bound(context) else FreshEmptyObject, args)))
    else
      Execution(Null, None)
  }

  /** Which synthesized callback the target invokes. */
  datatype Slot = SuccessSlot | FailureSlot

  /** The target invokes the synthesized callback in `slot` with `args`. */
  datatype Fire = Fire(slot: Slot, args: seq<Value>)

  /** How the synchronous part of the target's call ends. */
  datatype Completion = Returned(value: Value) | Threw(error: Value)

  /**
   * The target's behaviour: callbacks fired before it returns, how it
   * returns, and callbacks fired afterwards (from a timer or I/O completion).
   */
  datatype Behaviour = Behaviour(sync: seq<Fire>, completion: Completion, later: seq<Fire>)

  /**
   * A promise value: the array of callback arguments, a single value, or the
   * TypeError the engine throws when `fn.apply(...)` is attempted on an
   * object that cannot be called.
   */
  datatype Payload = ArgArray(items: seq<Value>) | Plain(value: Value) | ApplyTypeError

  /** The two synthesized callbacks appended to the target's arguments. */
  const Hooks: seq<Value> := [Fn(SuccessHook), Fn(FailureHook)]
}

=== FILE: js_values.dfy ===
/**
 * JavaScript values as the adaptation library observes them: primitives,
 * callables and references to objects whose members are resolved along an
 * explicit prototype chain.
 */
module JsValues {
  import opened Wrappers

  /** The index of an object in a heap. */
  type Ref = nat

  /** The four shipped builds of the adaptation function. */
  datatype Build =
    | SourceModule      // src/Promiseifyish.js
    | RedirectingBuild  // docs/scripts/dist/Promiseifyish.js
    | DistBuild         // dist/Promiseifyish.js
    | LegacyModule      // src/Promiseify.js

  /** Something `typeof` reports as 'function'. */
  datatype Callable =
      /** A user or host function; what it returns is supplied by a `World` oracle. */
    | Native(id: nat)
      /** The synthesized `onSuccessPromiseified` and `onErrorPromiseified` handed to a target. */
    | SuccessHook
    | FailureHook
      /** The redirectors the redirecting build creates itself. */
    | TrueRedirector
    | FalseRedirector
    | NodeStyleRedirector
      /** The function `Promiseify(target, options)` returns for a callable target. */
    | Wrapper(build: Build, target: Value, options: Option<Ref>)

  /**
   * A JavaScript value. `Num` stands for every finite number and `NaN` for
   * not-a-number. `functionProto` records whether `Function.prototype` lies on
   * the object's prototype chain (what `instanceof Function` observes);
   * prototypes never change in this model, so the reference carries it.
   */
  datatype Value =
    | Undefined
    | Null
    | Bool(b: bool)
    | Num(x: real)
    | NaN
    | Str(s: string)
    | Fn(callable: Callable)
    | Obj(ref: Ref, functionProto: bool)

  /** JavaScript truthiness (`!!v`). */
  predicate Truthy(v: Value) {
    match v
    case Undefined => false
    case Null => false
    case NaN => false
    case Bool(b) => b
    case Num(x) => x != 0.0
    case Str(s) => |s| > 0
    case Fn(_) => true
    case Obj(_, _) => true
  }

  /** `arguments[i]`: `undefined` for every index outside the argument list. */
  function ArgAt(args: seq<Value>, i: int): (v: Value)
    ensures 0 <= i < |args| ==> v == args[i]
    ensures !(0 <= i < |args|) ==> v == Undefined
  {
    if 0 <= i < |args| then args[i] else Undefined
  }

  /** The own properties of one object: one level of a prototype chain. */
  type Level = map<string, Value>

  /**
   * An ordinary object: its own properties and references to its
   * prototypes, nearest first. `Object.prototype` is an object like any other
   * and ends the list of every object that inherits from it.
   */
  datatype JsObject = JsObject(own: Level, protos: seq<Ref>)

  /** All objects in existence; a `Ref` indexes it. */
  type Heap = seq<JsObject>

  /**
   * Every prototype reference points into the heap, and the prototype's own
   * list is the rest of the list: the references spell out the chain that
   * `Object.getPrototypeOf` walks one step at a time.
   */
  predicate WellFormed(h: Heap) {
    forall r, i :: 0 <= r < |h| && 0 <= i < |h[r].protos| ==>
      h[r].protos[i] < |h| && h[h[r].protos[i]].protos == h[r].protos[i + 1..]
  }

  /** Rewriting own properties keeps a heap well-formed: only the prototype lists matter. */
  lemma SameProtosKeepWellFormed(h: Heap, h': Heap)
    requires WellFormed(h) && |h'| == |h| && forall k :: 0 <= k < |h| ==> h'[k].protos == h[k].protos
    ensures WellFormed(h')
  {
  }

  /** The own properties at `r`; a well-formed heap holds no reference outside it. */
  function OwnAt(h: Heap, r: Ref): Level {
    if r < |h| then h[r].own else map[]
  }

  /** The objects a read at `r` visits: `r` itself, then its prototypes. */
  function ChainRefs(h: Heap, r: Ref): seq<Ref>
    requires r < |h|
  {
    [r] + h[r].protos
  }

  /** The property maps a read at `r` searches, nearest first. */
  function ChainOf(h: Heap, r: Ref): (c: seq<Level>)
    requires r < |h|
    ensures |c| == |ChainRefs(h, r)| && c[0] == h[r].own
    ensures forall i :: 0 <= i < |c| ==> c[i] == OwnAt(h, ChainRefs(h, r)[i])
  {
    seq(|h[r].protos| + 1, i requires 0 <= i <= |h[r].protos| => OwnAt(h, ChainRefs(h, r)[i]))
  }

  /** Whether some level of `levels` owns `name`. */
  predicate Owns(levels: seq<Level>, name: string) {
    exists i :: 0 <= i < |levels| && name in levels[i]
  }

  /** Property read through a chain: the value at the nearest owning level, else `undefined`. */
  function LookupIn(levels: seq<Level>, name: string): (v: Value)
    ensures !Owns(levels, name) ==> v == Undefined
  {
    if |levels| == 0 then Undefined
    else if name in levels[0] then levels[0][name]
    else
      assert !Owns(levels[1..], name) ==> !Owns(levels, name) by {
        if Owns(levels, name) {
          var i :| 0 <= i < |levels| && name in levels[i];
          assert i > 0 && name in levels[1..][i - 1];
        }
      }
      LookupIn(levels[1..], name)
  }

  /** A read of an owned name finds the nearest level that owns it. */
  lemma {:induction false} NearestLevelRead(levels: seq<Level>, name: string) returns (i: nat)
    requires Owns(levels, name)
    ensures i < |levels| && name in levels[i] && LookupIn(levels, name) == levels[i][name]
    ensures forall j :: 0 <= j < i ==> name !in levels[j]
    decreases |levels|
  {
    if name in levels[0] {
      i := 0;
    } else {
      var k :| 0 <= k < |levels| && name in levels[k];
      assert name in levels[1..][k - 1];
      var i' := NearestLevelRead(levels[1..], name);
      i := i' + 1;
      forall j | 0 <= j < i ensures name !in levels[j] {
        if j > 0 { assert levels[j] == levels[1..][j - 1]; }
      }
    }
  }

  /** The level that owns `name` first is the one a read finds. */
  lemma NearestLevelWins(levels: seq<Level>, name: string, k: nat)
    requires k < |levels| && name in levels[k] && forall j :: 0 <= j < k ==> name !in levels[j]
    ensures LookupIn(levels, name) == levels[k][name]
  {
    var i := NearestLevelRead(levels, name);
    assert !(i < k) && !(k < i);
  }

  /** Two chains that agree on `name` level by level read it alike. */
  lemma {:induction false} LookupInAgree(a: seq<Level>, b: seq<Level>, name: string)
    requires |a| == |b|
    requires forall i :: 0 <= i < |a| ==> (name in a[i] <==> name in b[i]) && (name in a[i] ==> a[i][name] == b[i][name])
    ensures LookupIn(a, name) == LookupIn(b, name)
    decreases |a|
  {
    if |a| > 0 && name !in a[0] {
      LookupInAgree(a[1..], b[1..], name);
    }
  }

  /** `o[name]` for the object at `r`. */
  function Get(h: Heap, r: Ref, name: string): (v: Value)
    requires r < |h|
    ensures name in h[r].own ==> v == h[r].own[name]
    ensures (forall i :: 0 <= i < |ChainRefs(h, r)| ==> name !in OwnAt(h, ChainRefs(h, r)[i])) ==> v == Undefined
  {
    LookupIn(ChainOf(h, r), name)
  }

  /** A read finds an own property first and otherwise searches the prototypes. */
  lemma GetOwnFirst(h: Heap, r: Ref, name: string)
    requires r < |h|
    ensures Get(h, r, name) == if name in h[r].own then h[r].own[name] else LookupIn(ChainOf(h, r)[1..], name)
  {
  }

  /** Two heaps whose objects agree on `name` and on their prototypes read `name` alike everywhere. */
  lemma GetAgree(h: Heap, h': Heap, r: Ref, name: string)
    requires r < |h| && |h'| == |h|
    requires forall k :: 0 <= k < |h| ==> (h'[k].protos == h[k].protos &&
      (name in h'[k].own <==> name in h[k].own) && (name in h[k].own ==> h'[k].own[name] == h[k].own[name]))
    ensures Get(h', r, name) == Get(h, r, name)
  {
    assert ChainRefs(h', r) == ChainRefs(h, r);
    LookupInAgree(ChainOf(h', r), ChainOf(h, r), name);
  }

  /**
   * `o[name] = v` on the object at `r`: an assignment always creates or
   * overwrites an OWN property, shadowing an inherited one; prototypes and
   * every other object are untouched, and no other name reads differently
   * anywhere.
   */
  function SetOwn(h: Heap, r: Ref, name: string, v: Value): (h': Heap)
    requires r < |h|
    ensures |h'| == |h| && h'[r].protos == h[r].protos && forall k :: 0 <= k < |h| && k != r ==> h'[k] == h[k]
    ensures h'[r].own.Keys == h[r].own.Keys + {name}
    ensures Get(h', r, name) == v
    ensures forall k, n :: 0 <= k < |h| && n != name ==> Get(h', k, n) == Get(h, k, n)
    ensures WellFormed(h) ==> WellFormed(h')
  {
    var h' := h[r := h[r].(own := h[r].own[name := v])];
    assert WellFormed(h) ==> WellFormed(h') by {
      if WellFormed(h) { SameProtosKeepWellFormed(h, h'); }
    }
    assert forall k, n :: 0 <= k < |h| && n != name ==> Get(h', k, n) == Get(h, k, n) by {
      forall k, n | 0 <= k < |h| && n != name ensures Get(h', k, n) == Get(h, k, n) {
        GetAgree(h, h', k, n);
      }
    }
    h'
  }
}

=== FILE: legacy_promiseify.dfy ===
/**
 * `Promiseify(fn)` of src/Promiseify.js, the older entry point built on the
 * src/Common.js ladder: with callbacks it settles with their first argument;
 * without, it settles with what the target returns or throws; an object
 * yields a shallow copy with its callable own members wrapped.
 */
module LegacyPromiseify {
  import opened Wrappers
  import opened JsValues
  import opened Deferred
  import opened ObjectAdaptation
  import opened ArgumentSplit
  import opened Invocation
  import opened CallbackSettlement
  import Common

  /** `isFunction` of src/Common.js, for a fixed heap and number-parsing oracle. */
  function IsCallable(h: Heap, parsesAsNumber: Value -> bool): (isCallable: Value -> bool)
    ensures Classifier(isCallable)
    ensures forall v :: isCallable(v) == Common.IsFunction(h, parsesAsNumber, v)
  {
    Common.FunctionAndObjectExclusive(h, parsesAsNumber, Undefined);
    (v: Value) => Common.IsFunction(h, parsesAsNumber, v)
  }

  /** The settlement of the no-callback path: `Promise.resolve(fn.apply({}, args))`, or the caught throw. */
  function Settled(c: Completion): (s: Settlement<Payload>)
    ensures s != Pending
    ensures c.Returned? <==> s.Fulfilled?
    ensures s.Fulfilled? ==> s.value == Plain(c.value)
    ensures s.Rejected? ==> s.reason == Plain(c.error)
  {
    match c
    case Returned(v) => Fulfilled(Plain(v))
    case Threw(e) => Rejected(Plain(e))
  }

  /**
   * A call of the wrapper. The ladder also calls an object owning `name` and
   * `length` a function; `fn.apply({}, args)` on it throws a TypeError, which
   * the executor (with callbacks) or the `catch` (without) turns into a
   * rejection before anything is called.
   */
  function Invoke(h: Heap, parsesAsNumber: Value -> bool, world: World, target: Value, args: seq<Value>, b: Behaviour): (run: (Option<Call>, Progress))
    // an object target is never called: the promise rejects with the TypeError
    ensures target.Obj? ==> run == (None, Progress([], Rejected(ApplyTypeError)))
    // with a callback the target gets the positional arguments and two synthesized callbacks
    ensures !target.Obj? && HasHandlers(SplitArguments(IsCallable(h, parsesAsNumber), args)) ==> (
      run.0 == Some(Call(target, FreshEmptyObject, SplitArguments(IsCallable(h, parsesAsNumber), args).positional + Hooks)) &&
      run.1.state == PerformAll(Pending, BehaviourAttempts(FirstArgument, world, b)) &&
      run.1.calls == FireCalls(FirstArgument, world, SplitArguments(IsCallable(h, parsesAsNumber), args), b.sync + b.later))
    // without, it gets exactly the caller's arguments and its completion settles the promise
    ensures !target.Obj? && !HasHandlers(SplitArguments(IsCallable(h, parsesAsNumber), args)) ==> (
      run.0 == Some(Call(target, FreshEmptyObject, args)) && run.1.calls == [] && run.1.state == Settled(b.completion))
  {
    var isCallable := IsCallable(h, parsesAsNumber);
    var s := SplitArguments(isCallable, args);
    if target.Obj? then (None, Progress([], Rejected(ApplyTypeError)))
    else if HasHandlers(s) then
      var run := InvokeWithHooks(FirstArgument, isCallable, world, target, args, b);
      (Some(run.0), run.1)
    else
      HasHandlersIffCallback(isCallable, args);
      assert s.positional == args by {
        assert s.positional + s.Callbacks() == args;
      }
      (Some(Call(target, FreshEmptyObject, s.positional)), Progress([], Settled(b.completion)))
  }

  /**
   * With callbacks, a fire with `B` settles with `B[0]` alone and hands the
   * matching user handler `B[0]` alone, called without a receiver; a failure
   * fire with no failure callback runs only the default no-op. An object
   * target rejects with the TypeError whatever it would have fired.
   */
  lemma FirstArgumentOnly(h: Heap, parsesAsNumber: Value -> bool, world: World, target: Value, args: seq<Value>, slot: Slot, B: seq<Value>, v: Value)
    requires HasHandlers(SplitArguments(IsCallable(h, parsesAsNumber), args))
    ensures var run := Invoke(h, parsesAsNumber, world, target, args, Behaviour([Fire(slot, B)], Returned(v), []));
      var s := SplitArguments(IsCallable(h, parsesAsNumber), args);
      (target.Obj? ==> run.1 == Progress([], Rejected(ApplyTypeError))) &&
      (!target.Obj? ==>
        run.1.state == (if slot == SuccessSlot then Fulfilled(Plain(ArgAt(B, 0))) else Rejected(Plain(ArgAt(B, 0)))) &&
        run.1.calls == (if HandlerFor(s, slot).Some? then [Call(HandlerFor(s, slot).value, Bound(Undefined), [ArgAt(B, 0)])] else []))
  {
    var b := Behaviour([Fire(slot, B)], Returned(v), []);
    FirstAttemptWins(BehaviourAttempts(FirstArgument, world, b));
    assert b.sync + b.later == [Fire(slot, B)];
    assert FireCalls(FirstArgument, world, SplitArguments(IsCallable(h, parsesAsNumber), args), [Fire(slot, B)][1..]) == [];
  }

  /**
   * A plain record owning `name` and `length` whose text does not read as a
   * number passes the ladder's `isFunction`, so it is wrapped; calling the
   * wrapper rejects with the TypeError and calls nothing, whatever it fires.
   */
  lemma NameLengthRecordRejects(h: Heap, parsesAsNumber: Value -> bool, world: World, r: Ref, p: bool, args: seq<Value>, b: Behaviour)
    requires r < |h| && "name" in h[r].own && "length" in h[r].own && !parsesAsNumber(Obj(r, p))
    ensures Common.IsFunction(h, parsesAsNumber, Obj(r, p))
    ensures Invoke(h, parsesAsNumber, world, Obj(r, p), args, b) == (None, Progress([], Rejected(ApplyTypeError)))
  {
  }

  /** `objectProto` is where `Object.prototype` lives, the prototype of every copy. */
  method Promiseify(h: Heap, parsesAsNumber: Value -> bool, target: Value, objectProto: Ref) returns (r: Result<(Heap, Value), Error>)
    requires target.Obj? ==> target.ref < |h|
    requires objectProto < |h|
    // whatever the ladder calls a function is wrapped
    ensures Common.IsFunction(h, parsesAsNumber, target) ==> r == Success((h, Fn(Wrapper(LegacyModule, target, None))))
    // whatever it calls an object (null included) yields a new object after every existing one
    ensures Common.IsObject(h, parsesAsNumber, target) ==> ((target.Null? || target.Obj?) && r.Success? &&
      r.value.1 == Obj(|h|, false) && |r.value.0| == |h| + 1 && r.value.0[..|h|] == h && r.value.0[|h|].protos == [objectProto])
    ensures Common.IsObject(h, parsesAsNumber, target) && target.Null? ==> (r.Success? && r.value.0[|h|].own == map[])
    ensures Common.IsObject(h, parsesAsNumber, target) && target.Obj? ==> (r.Success? &&
      r.value.0[|h|].own.Keys == h[target.ref].own.Keys &&
      forall n :: n in h[target.ref].own ==> (r.value.0[|h|].own[n] ==
        if Common.IsFunction(h, parsesAsNumber, h[target.ref].own[n])
        then Fn(Wrapper(LegacyModule, h[target.ref].own[n], None)) else h[target.ref].own[n]))
    // the rest is refused with a fixed message that omits the type
    ensures !Common.IsFunction(h, parsesAsNumber, target) && !Common.IsObject(h, parsesAsNumber, target) ==>
      r == Failure(CannotPromiseify("Cannot promisify type: "))
    ensures r.Success? && WellFormed(h) && h[objectProto].protos == [] ==> WellFormed(r.value.0)
  {
    if Common.IsFunction(h, parsesAsNumber, target) {
      r := Success((h, Fn(Wrapper(LegacyModule, target, None))));
    } else if Common.IsObject(h, parsesAsNumber, target) {
      r := Success(CopyAdapted(h, target, IsCallable(h, parsesAsNumber), LegacyModule, objectProto));
    } else {
      r := Failure(CannotPromiseify("Cannot promisify type: "));
    }
  }

  /**
   * Because the ladder classifies by own property names, an object owning
   * 'length' but not 'name' (an array) is neither a function nor an object,
   * so `Promiseify` refuses it.
   */
  lemma ArrayLikeObjectsAreRefused(h: Heap, parsesAsNumber: Value -> bool, r: Ref, p: bool)
    requires r < |h| && "length" in h[r].own && "name" !in h[r].own
    ensures !Common.IsFunction(h, parsesAsNumber, Obj(r, p)) && !Common.IsObject(h, parsesAsNumber, Obj(r, p))
  {
  }
}

=== FILE: name_discovery.dfy ===
/**
 * `getAllFunctionNames`: the names of the callable members of an object,
 * own and inherited, minus those `Object.prototype` defines, deduplicated and
 * sorted.
 */
module NameDiscovery {
  import opened JsValues
  import opened Sequences
  import opened StringOrder
  import Classify

  /**
   * A chain level offers `name` when it owns it with a truthy, callable value
   * and `Object.prototype` does not define a property of that name.
   */
  predicate CandidateAt(level: Level, name: string, objectNames: set<string>) {
    name in level && Truthy(level[name]) && Classify.IsFunction(level[name]) && name !in objectNames
  }

  /** Some level of `levels` offers `name`. */
  predicate OfferedBy(levels: seq<Level>, name: string, objectNames: set<string>) {
    exists k :: 0 <= k < |levels| && CandidateAt(levels[k], name, objectNames)
  }

  /**
   * The chain `getAllFunctionNames` walks: the target's levels when it is a
   * non-null object, nothing otherwise.
   */
  function WalkedChain(h: Heap, target: Value): seq<Level> {
    if Truthy(target) && Classify.IsObject(target) && target.ref < |h| then ChainOf(h, target.ref) else []
  }

  /**
   * The do-while over the prototype chain, the filter pipeline over each
   * level's own names, and the final sort. `objectNames` is the list of own
   * property names of `Object.prototype`.
   */
  method GetAllFunctionNames(h: Heap, target: Value, objectNames: set<string>) returns (names: seq<string>)
    ensures !(target.Obj? && target.ref < |h|) ==> names == []
    ensures StrictlySorted(names)
    ensures forall n :: n in names <==> OfferedBy(WalkedChain(h, target), n, objectNames)
    ensures forall n :: n in names ==> n !in objectNames
  {
    var collected: seq<string> := [];
    var levels := WalkedChain(h, target);
    var i := 0;
    while i < |levels|
      invariant 0 <= i <= |levels|
      invariant i == 0 ==> collected == []
      invariant NoDuplicates(collected)
      invariant forall n :: n in collected <==> OfferedBy(levels[..i], n, objectNames)
    {
      // Object.getOwnPropertyNames(level), in whatever order it reports them
      var pending := levels[i].Keys;
      while pending != {}
        invariant pending <= levels[i].Keys
        invariant NoDuplicates(collected)
        invariant forall n :: n in collected <==>
          OfferedBy(levels[..i], n, objectNames) || (n !in pending && CandidateAt(levels[i], n, objectNames))
        decreases pending
      {
        var name :| name in pending;
        pending := pending - {name};
        var v := levels[i][name];
        if Truthy(v) && Classify.IsFunction(v) && name !in objectNames && name !in collected {
          collected := collected + [name];
        }
      }
      assert forall n :: OfferedBy(levels[..i + 1], n, objectNames) <==>
        OfferedBy(levels[..i], n, objectNames) || CandidateAt(levels[i], n, objectNames)
      by {
        forall n ensures OfferedBy(levels[..i + 1], n, objectNames) <==>
          OfferedBy(levels[..i], n, objectNames) || CandidateAt(levels[i], n, objectNames)
        {
          if OfferedBy(levels[..i + 1], n, objectNames) {
            var k :| 0 <= k < i + 1 && CandidateAt(levels[..i + 1][k], n, objectNames);
            if k < i {
              assert levels[..i][k] == levels[..i + 1][k];
            }
          }
          if OfferedBy(levels[..i], n, objectNames) {
            var k :| 0 <= k < i && CandidateAt(levels[..i][k], n, objectNames);
            assert levels[..i + 1][k] == levels[..i][k];
          }
          if CandidateAt(levels[i], n, objectNames) {
            assert levels[..i + 1][i] == levels[i];
          }
        }
      }
      i := i + 1;
    }
    assert levels[..i] == levels;
    names := Sort(collected);
    assert forall n :: n in names <==> n in collected by {
      forall n ensures n in names <==> n in collected {
        assert n in names <==> n in multiset(names);
        assert n in collected <==> n in multiset(collected);
      }
    }
  }

  /**
   * Discovery is a function of the object: two lists that meet the
   * postcondition are equal, so the property order of each level does not
   * matter and repeated calls agree.
   */
  lemma DiscoveryIsDeterministic(h: Heap, target: Value, objectNames: set<string>, a: seq<string>, b: seq<string>)
    requires StrictlySorted(a) && forall n :: n in a <==> OfferedBy(WalkedChain(h, target), n, objectNames)
    requires StrictlySorted(b) && forall n :: n in b <==> OfferedBy(WalkedChain(h, target), n, objectNames)
    ensures a == b
  {
    SortedUnique(a, b);
  }

  /**
   * Every member that reads as a callable through the chain is discovered,
   * unless `Object.prototype` defines its name: the nearest owning level
   * offers it.
   */
  lemma {:induction false} CallableMemberIsDiscovered(h: Heap, r: Ref, name: string, objectNames: set<string>)
    requires r < |h| && Classify.IsFunction(Get(h, r, name)) && name !in objectNames
    ensures OfferedBy(ChainOf(h, r), name, objectNames)
  {
    Classify.CallableIsTruthy(Get(h, r, name));
    var c := ChainOf(h, r);
    assert Owns(c, name);
    var k := NearestLevelRead(c, name);
    assert CandidateAt(c[k], name, objectNames);
  }
}

=== FILE: object_adaptation.dfy ===
/**
 * Adapting an object: replacing selected members by their wrappers. The
 * current builds mutate the target in place; src/Promiseify.js and
 * dist/Promiseifyish.js adapt a shallow copy of its own properties.
 */
module ObjectAdaptation {
  import opened Wrappers
  import opened JsValues
  import opened Sequences
  import opened Selection
  import NameDiscovery
  import StringOrder
  import Classify

  /** What a build throws. */
  datatype Error =
    | CannotPromiseify(message: string)  // the string thrown for a target of the wrong kind
    | NullMemberRead(name: string)       // the TypeError of reading `null[name]`

  /** `Promiseify(v, options)` of a member: the wrapper the build returns for it. */
  function Wrap(build: Build, options: Option<Ref>, v: Value): Value {
    Fn(Wrapper(build, v, options))
  }

  /** The fold replaces `name`: it is listed and its value at `ref` is callable. */
  predicate Replaced(h: Heap, ref: Ref, names: seq<string>, isCallable: Value -> bool, name: string)
    requires ref < |h|
  {
    name in names && isCallable(Get(h, ref, name))
  }

  /**
   * `names.forEach(name => { if (isFunction(obj[name])) obj[name] = Promiseify(obj[name], …) })`
   * on the object at `ref`: each listed name whose current value is callable
   * becomes an own property holding the wrapper of that value. Only that
   * object's own properties change.
   */
  function AdaptMembers(h: Heap, ref: Ref, names: seq<string>, isCallable: Value -> bool, build: Build, options: Option<Ref>): (h': Heap)
    requires ref < |h|
    ensures |h'| == |h| && h'[ref].protos == h[ref].protos
    ensures forall k :: 0 <= k < |h| && k != ref ==> h'[k] == h[k]
    ensures WellFormed(h) ==> WellFormed(h')
    decreases |names|
  {
    if |names| == 0 then h
    else
      var v := Get(h, ref, names[0]);
      AdaptMembers(if isCallable(v) then SetOwn(h, ref, names[0], Wrap(build, options, v)) else h,
        ref, names[1..], isCallable, build, options)
  }

  /** The own names after the loop: the old ones plus every listed name whose value was callable. */
  lemma {:induction false} AdaptMembersKeys(h: Heap, ref: Ref, names: seq<string>, isCallable: Value -> bool, build: Build, options: Option<Ref>)
    requires ref < |h| && NoDuplicates(names)
    ensures forall n :: n in AdaptMembers(h, ref, names, isCallable, build, options)[ref].own <==>
      n in h[ref].own || Replaced(h, ref, names, isCallable, n)
    decreases |names|
  {
    if |names| > 0 {
      var name, rest := names[0], names[1..];
      var v := Get(h, ref, name);
      var h1 := if isCallable(v) then SetOwn(h, ref, name, Wrap(build, options, v)) else h;
      assert AdaptMembers(h, ref, names, isCallable, build, options) == AdaptMembers(h1, ref, rest, isCallable, build, options);
      assert NoDuplicates(rest) && name !in rest;
      AdaptMembersKeys(h1, ref, rest, isCallable, build, options);
      forall n | n != name ensures Replaced(h1, ref, rest, isCallable, n) == Replaced(h, ref, names, isCallable, n) {
        assert Get(h1, ref, n) == Get(h, ref, n);
      }
    }
  }

  /**
   * For a duplicate-free list: exactly the listed callable members become
   * own properties holding their wrappers, each once, and every other own
   * property is unchanged.
   */
  lemma {:induction false} AdaptMembersEffect(h: Heap, ref: Ref, names: seq<string>, isCallable: Value -> bool, build: Build, options: Option<Ref>)
    requires ref < |h| && NoDuplicates(names)
    ensures var h' := AdaptMembers(h, ref, names, isCallable, build, options);
      (forall n :: n in h'[ref].own <==> n in h[ref].own || Replaced(h, ref, names, isCallable, n)) &&
      (forall n :: n in h'[ref].own ==> (h'[ref].own[n] ==
        if Replaced(h, ref, names, isCallable, n) then Wrap(build, options, Get(h, ref, n)) else h[ref].own[n]))
    decreases |names|
  {
    AdaptMembersKeys(h, ref, names, isCallable, build, options);
    if |names| > 0 {
      var name, rest := names[0], names[1..];
      var v := Get(h, ref, name);
      var h1 := if isCallable(v) then SetOwn(h, ref, name, Wrap(build, options, v)) else h;
      var h' := AdaptMembers(h1, ref, rest, isCallable, build, options);
      assert AdaptMembers(h, ref, names, isCallable, build, options) == h';
      assert NoDuplicates(rest) && name !in rest;
      AdaptMembersEffect(h1, ref, rest, isCallable, build, options);
      forall n | n in h'[ref].own
        ensures h'[ref].own[n] == if Replaced(h, ref, names, isCallable, n) then Wrap(build, options, Get(h, ref, n)) else h[ref].own[n]
      {
        if n == name {
          assert !Replaced(h1, ref, rest, isCallable, n);
        } else {
          assert Get(h1, ref, n) == Get(h, ref, n);
          assert Replaced(h1, ref, rest, isCallable, n) == Replaced(h, ref, names, isCallable, n);
        }
      }
    }
  }

  /**
   * A heap that differs from `h` only in the own properties of `ref`, and
   * there not at `name`, reads `name` as `h` does at every object.
   */
  lemma ReadsElsewhereUnchanged(h: Heap, h': Heap, ref: Ref, k: Ref, name: string)
    requires ref < |h| && k < |h| && |h'| == |h|
    requires h'[ref].protos == h[ref].protos && forall x :: 0 <= x < |h| && x != ref ==> h'[x] == h[x]
    requires (name in h'[ref].own <==> name in h[ref].own) && (name in h[ref].own ==> h'[ref].own[name] == h[ref].own[name])
    ensures Get(h', k, name) == Get(h, k, name)
  {
    GetAgree(h, h', k, name);
  }

  /**
   * A read of `name` at `k` reaches the object at `ref`: `ref` lies on the
   * chain of `k` and no object before it owns `name`. An instance reaches its
   * prototype for every name it does not shadow.
   */
  predicate Reaches(h: Heap, k: Ref, ref: Ref, name: string)
    requires k < |h|
  {
    exists j :: 0 <= j < |ChainRefs(h, k)| && ChainRefs(h, k)[j] == ref &&
      forall i :: 0 <= i < j ==> ChainRefs(h, k)[i] != ref && name !in OwnAt(h, ChainRefs(h, k)[i])
  }

  /**
   * When only the own properties of `ref` change, a read at `k` that reaches
   * `ref` in `h` finds what `ref` now owns under that name.
   */
  lemma ReadsThroughChanged(h: Heap, h': Heap, ref: Ref, k: Ref, name: string)
    requires ref < |h| && k < |h| && |h'| == |h|
    requires h'[ref].protos == h[ref].protos && forall x :: 0 <= x < |h| && x != ref ==> h'[x] == h[x]
    requires Reaches(h, k, ref, name) && name in h'[ref].own
    ensures Get(h', k, name) == h'[ref].own[name]
  {
    var c := ChainRefs(h, k);
    var j :| 0 <= j < |c| && c[j] == ref && forall i :: 0 <= i < j ==> c[i] != ref && name !in OwnAt(h, c[i]);
    assert ChainRefs(h', k) == c;
    var levels := ChainOf(h', k);
    forall i | 0 <= i < j ensures name !in levels[i] {
      assert levels[i] == OwnAt(h', c[i]) == OwnAt(h, c[i]);
    }
    assert levels[j] == h'[ref].own;
    NearestLevelWins(levels, name, j);
  }

  /** Seen through reads at `ref`: the listed callable members read as their wrappers, every other name as before. */
  lemma AdaptMembersReads(h: Heap, ref: Ref, names: seq<string>, isCallable: Value -> bool, build: Build, options: Option<Ref>)
    requires ref < |h| && NoDuplicates(names)
    ensures forall n :: (Get(AdaptMembers(h, ref, names, isCallable, build, options), ref, n) ==
      if Replaced(h, ref, names, isCallable, n) then Wrap(build, options, Get(h, ref, n)) else Get(h, ref, n))
  {
    var h' := AdaptMembers(h, ref, names, isCallable, build, options);
    AdaptMembersEffect(h, ref, names, isCallable, build, options);
    forall n ensures Get(h', ref, n) == if Replaced(h, ref, names, isCallable, n) then Wrap(build, options, Get(h, ref, n)) else Get(h, ref, n) {
      if Replaced(h, ref, names, isCallable, n) {
        GetOwnFirst(h', ref, n);
      } else {
        ReadsElsewhereUnchanged(h, h', ref, ref, n);
      }
    }
  }

  /**
   * A name listed twice (possible only through `only`) is wrapped twice: the
   * second pass finds the first wrapper, which is callable.
   */
  lemma RepeatedNameWrapsTwice(h: Heap, ref: Ref, name: string, build: Build, options: Option<Ref>)
    requires ref < |h| && Classify.IsFunction(Get(h, ref, name))
    ensures Get(AdaptMembers(h, ref, [name, name], Classify.IsFunction, build, options), ref, name) ==
      Wrap(build, options, Wrap(build, options, Get(h, ref, name)))
  {
    var h1 := SetOwn(h, ref, name, Wrap(build, options, Get(h, ref, name)));
    assert [name, name][1..] == [name];
    assert AdaptMembers(h, ref, [name, name], Classify.IsFunction, build, options) ==
      AdaptMembers(h1, ref, [name], Classify.IsFunction, build, options);
  }

  /**
   * The first member read on a `null` target: `only` reads each listed name
   * and `include` each of its names, while `exclude` reads none.
   */
  function NullRead(policy: Policy): (r: Option<string>)
    ensures r.Some? <==>
      (policy.only.Some? && |policy.only.value| > 0) ||
      (policy.only.None? && policy.includes.Some? && |policy.includes.value| > 0)
    ensures r.Some? && policy.only.Some? ==> r.value == policy.only.value[0]
    ensures r.Some? && policy.only.None? ==> r.value == policy.includes.value[0]
  {
    if policy.only.Some? then
      if |policy.only.value| > 0 then Some(policy.only.value[0]) else None
    else if policy.includes.Some? && |policy.includes.value| > 0 then Some(policy.includes.value[0])
    else None
  }

  /** The names the object branch hands to the wrapping loop. */
  function Selected(h: Heap, ref: Ref, discovered: seq<string>, policy: Policy): seq<string>
    requires ref < |h|
  {
    Select(discovered, policy, (n: string) => Classify.IsFunction(Get(h, ref, n)))
  }

  /**
   * What the policy means, independently of how the lists are built: the
   * member is callable and is named by `only`, or else by `include` (or, with
   * neither, discovered on the chain) and not by `exclude`.
   */
  predicate Chosen(h: Heap, ref: Ref, policy: Policy, objectNames: set<string>, name: string)
    requires ref < |h|
  {
    Classify.IsFunction(Get(h, ref, name)) &&
    if policy.only.Some? then name in policy.only.value
    else
      (if policy.includes.Some? then name in policy.includes.value
       else NameDiscovery.OfferedBy(ChainOf(h, ref), name, objectNames)) &&
      (policy.excludes.Some? ==> name !in policy.excludes.value)
  }

  /**
   * `h'` is `h` with the object at `ref` adapted in place: no other object
   * and no prototype list changes, and (unless `only` repeats a name) the
   * chosen members become own properties holding their wrappers, every
   * other own property stays, and so every chosen member reads as its
   * wrapper and every other name as before.
   */
  ghost predicate AdaptedInPlace(h: Heap, ref: Ref, h': Heap, policy: Policy, build: Build, options: Option<Ref>, objectNames: set<string>)
    requires ref < |h|
  {
    |h'| == |h| && (forall k :: 0 <= k < |h| && k != ref ==> h'[k] == h[k]) && h'[ref].protos == h[ref].protos &&
    ((policy.only.None? || NoDuplicates(policy.only.value)) ==>
      (forall n :: n in h'[ref].own <==> n in h[ref].own || Chosen(h, ref, policy, objectNames, n)) &&
      (forall n :: n in h'[ref].own ==> (h'[ref].own[n] ==
        if Chosen(h, ref, policy, objectNames, n) then Wrap(build, options, Get(h, ref, n)) else h[ref].own[n])) &&
      (forall n :: Get(h', ref, n) ==
        if Chosen(h, ref, policy, objectNames, n) then Wrap(build, options, Get(h, ref, n)) else Get(h, ref, n)))
  }

  /**
   * Adapting a prototype in place is seen by everything that inherits from
   * it: a name that was not chosen reads as before at every object, and a
   * chosen one reads as its wrapper at every object whose read reaches the
   * adapted one (its instances, unless they shadow the name).
   */
  lemma InstancesSeeWrappers(h: Heap, ref: Ref, h': Heap, policy: Policy, build: Build, options: Option<Ref>, objectNames: set<string>, k: Ref, n: string)
    requires ref < |h| && k < |h| && AdaptedInPlace(h, ref, h', policy, build, options, objectNames)
    requires policy.only.None? || NoDuplicates(policy.only.value)
    ensures !Chosen(h, ref, policy, objectNames, n) ==> Get(h', k, n) == Get(h, k, n)
    ensures Chosen(h, ref, policy, objectNames, n) && Reaches(h, k, ref, n) ==>
      Get(h', k, n) == Wrap(build, options, Get(h, ref, n))
  {
    if Chosen(h, ref, policy, objectNames, n) {
      if Reaches(h, k, ref, n) {
        ReadsThroughChanged(h, h', ref, k, n);
      }
    } else {
      ReadsElsewhereUnchanged(h, h', ref, k, n);
    }
  }

  /** The wrapping loop over the selected names realises `Chosen`. */
  lemma SelectedMeansChosen(h: Heap, ref: Ref, discovered: seq<string>, policy: Policy, objectNames: set<string>, n: string)
    requires ref < |h|
    requires forall m :: m in discovered <==> NameDiscovery.OfferedBy(ChainOf(h, ref), m, objectNames)
    ensures Replaced(h, ref, Selected(h, ref, discovered, policy), Classify.IsFunction, n) <==> Chosen(h, ref, policy, objectNames, n)
  {
    var callable := (m: string) => Classify.IsFunction(Get(h, ref, m));
    assert Selected(h, ref, discovered, policy) == Select(discovered, policy, callable);
    assert callable(n) == Classify.IsFunction(Get(h, ref, n));
  }

  /**
   * The object branch of src/Promiseifyish.js and docs/scripts/dist/Promiseifyish.js:
   * discover the callable names, apply the policy, and replace the selected
   * callable members in place. `discovered` is what `getAllFunctionNames`
   * returned.
   */
  method AdaptInPlace(h: Heap, target: Value, policy: Policy, build: Build, options: Option<Ref>, objectNames: set<string>)
    returns (r: Result<(Heap, Value), Error>, discovered: seq<string>)
    requires target.Null? || (target.Obj? && target.ref < |h|)
    // null: returned as is, unless the policy reads one of its members
    ensures target.Null? ==> (discovered == [] && r ==
      (if NullRead(policy).Some? then Failure(NullMemberRead(NullRead(policy).value)) else Success((h, Null))))
    // an object: discovery finds its callable members, sorted
    ensures target.Obj? ==> (StringOrder.StrictlySorted(discovered) &&
      forall n :: n in discovered <==> NameDiscovery.OfferedBy(ChainOf(h, target.ref), n, objectNames))
    // the same reference comes back, adapted in place
    ensures target.Obj? ==> (r.Success? && r.value.1 == target &&
      AdaptedInPlace(h, target.ref, r.value.0, policy, build, options, objectNames))
    // in every case, including a repeated `only` name, the loop's exact effect
    ensures target.Obj? ==> (r.Success? && r.value.0 ==
      AdaptMembers(h, target.ref, Selected(h, target.ref, discovered, policy), Classify.IsFunction, build, options))
    ensures r.Success? && WellFormed(h) ==> WellFormed(r.value.0)
  {
    discovered := NameDiscovery.GetAllFunctionNames(h, target, objectNames);
    if target.Null? {
      r := match NullRead(policy)
        case Some(name) => Failure(NullMemberRead(name))
        case None => Success((h, Null));
    } else {
      var ref := target.ref;
      assert Classify.IsObject(target);
      assert NameDiscovery.WalkedChain(h, target) == ChainOf(h, ref);
      var names := Selected(h, ref, discovered, policy);
      var h' := AdaptMembers(h, ref, names, Classify.IsFunction, build, options);
      if policy.only.None? || NoDuplicates(policy.only.value) {
        StringOrder.SortedHasNoDuplicates(discovered);
        AdaptMembersEffect(h, ref, names, Classify.IsFunction, build, options);
        AdaptMembersReads(h, ref, names, Classify.IsFunction, build, options);
        forall n ensures Replaced(h, ref, names, Classify.IsFunction, n) <==> Chosen(h, ref, policy, objectNames, n) {
          SelectedMeansChosen(h, ref, discovered, policy, objectNames, n);
        }
      }
      r := Success((h', target));
    }
  }

  /**
   * `{}` inheriting from an `Object.prototype` whose `toString` is a
   * function: `{only: ['toString']}` reads the inherited member, finds it
   * callable, and gives the object an own wrapper of it, leaving
   * `Object.prototype` itself alone.
   */
  lemma OnlyWrapsInheritedMember(h': Heap, build: Build, options: Option<Ref>, objectNames: set<string>)
    requires AdaptedInPlace([JsObject(map["toString" := Fn(Native(0))], []), JsObject(map[], [0])], 1, h',
      Policy(Some(["toString"]), None, None), build, options, objectNames)
    ensures "toString" in h'[1].own && h'[1].own["toString"] == Wrap(build, options, Fn(Native(0)))
    ensures Get(h', 1, "toString") == Wrap(build, options, Fn(Native(0)))
    ensures h'[0] == JsObject(map["toString" := Fn(Native(0))], [])
  {
    var h := [JsObject(map["toString" := Fn(Native(0))], []), JsObject(map[], [0])];
    assert ChainOf(h, 1)[1] == OwnAt(h, 0);
    NearestLevelWins(ChainOf(h, 1), "toString", 1);
    assert Chosen(h, 1, Policy(Some(["toString"]), None, None), objectNames, "toString");
  }

  /**
   * Every own property of `own`, the callable ones replaced by their wrappers:
   * `Object.assign({}, o)` followed by the wrapping loop over the copy's names.
   */
  function AdaptAll(own: Level, isCallable: Value -> bool, build: Build): (adapted: Level)
    ensures adapted.Keys == own.Keys
  {
    map n | n in own :: if isCallable(own[n]) then Wrap(build, None, own[n]) else own[n]
  }

  /** Wrapping every own name of the object at `ref`, in any duplicate-free order, leaves it owning `AdaptAll` of its properties. */
  lemma AdaptOwnNames(h: Heap, ref: Ref, names: seq<string>, isCallable: Value -> bool, build: Build)
    requires ref < |h| && NoDuplicates(names) && forall n :: n in names <==> n in h[ref].own
    ensures AdaptMembers(h, ref, names, isCallable, build, None)[ref].own == AdaptAll(h[ref].own, isCallable, build)
  {
    var own := h[ref].own;
    var own' := AdaptMembers(h, ref, names, isCallable, build, None)[ref].own;
    var adapted := AdaptAll(own, isCallable, build);
    assert forall n :: (n in own' <==> n in adapted) && (n in own' ==> own'[n] == adapted[n]) by {
      AdaptMembersEffect(h, ref, names, isCallable, build, None);
      forall n ensures (n in own' <==> n in adapted) && (n in own' ==> own'[n] == adapted[n]) {
        assert Replaced(h, ref, names, isCallable, n) ==> n in names;
        if n in own {
          GetOwnFirst(h, ref, n);
          assert n in names;
        }
      }
    }
    assert own' == adapted;
  }

  /**
   * The loop over `Object.getOwnPropertyNames(copy)` has the same effect in
   * whatever order the names come: the copy's own properties become
   * `AdaptAll` of themselves, and nothing else changes.
   */
  lemma EnumerationOrderIrrelevant(h: Heap, ref: Ref, names: seq<string>, isCallable: Value -> bool, build: Build)
    requires ref < |h| && NoDuplicates(names) && forall n :: n in names <==> n in h[ref].own
    ensures AdaptMembers(h, ref, names, isCallable, build, None) ==
      h[ref := JsObject(AdaptAll(h[ref].own, isCallable, build), h[ref].protos)]
  {
    var h' := AdaptMembers(h, ref, names, isCallable, build, None);
    var expected := h[ref := JsObject(AdaptAll(h[ref].own, isCallable, build), h[ref].protos)];
    AdaptOwnNames(h, ref, names, isCallable, build);
    assert h'[ref] == expected[ref];
    assert forall k :: 0 <= k < |h| ==> h'[k] == expected[k];
  }

  /**
   * The object branch of src/Promiseify.js and dist/Promiseifyish.js: a new
   * object, allocated after every existing one and inheriting from
   * `Object.prototype` (the object at `objectProto`), holding the source's own
   * properties (none for `null`) with the callable ones wrapped. The source
   * and every other object are unchanged.
   */
  function CopyAdapted(h: Heap, target: Value, isCallable: Value -> bool, build: Build, objectProto: Ref): (run: (Heap, Value))
    requires target.Null? || (target.Obj? && target.ref < |h|)
    requires objectProto < |h|
    ensures run.1 == Obj(|h|, false) && |run.0| == |h| + 1 && run.0[..|h|] == h
    ensures run.0[|h|].protos == [objectProto]
    ensures target.Null? ==> run.0[|h|].own == map[]
    ensures target.Obj? ==> (run.0[|h|].own.Keys == h[target.ref].own.Keys &&
      forall n :: n in h[target.ref].own ==> (run.0[|h|].own[n] ==
        if isCallable(h[target.ref].own[n]) then Fn(Wrapper(build, h[target.ref].own[n], None)) else h[target.ref].own[n]))
    ensures WellFormed(h) && h[objectProto].protos == [] ==> WellFormed(run.0)
  {
    var source: Level := if target.Null? then map[] else h[target.ref].own;
    (h + [JsObject(AdaptAll(source, isCallable, build), [objectProto])], Obj(|h|, false))
  }
}

=== FILE: promiseifyish.dfy ===
/**
 * `Promiseify(target, options)` of src/Promiseifyish.js: a function becomes a
 * promise-returning wrapper, an object has its selected callable members
 * replaced in place, and any other kind of value is refused.
 */
module Promiseifyish {
  import opened Wrappers
  import opened JsValues
  import opened Selection
  import opened ObjectAdaptation
  import opened ArgumentSplit
  import opened Invocation
  import opened CallbackSettlement
  import Classify

  /** The text thrown for a target that is neither a function nor an object. */
  function RefusalMessage(target: Value): string {
    "Cannot promiseify type: " + Classify.TypeOf(target).Name()
  }

  /**
   * `options` is the caller's policy; `None` stands for an absent or falsy
   * `options`, which the object branch reads as `{}`.
   */
  method Promiseify(h: Heap, target: Value, options: Option<Policy>, objectNames: set<string>)
    returns (r: Result<(Heap, Value), Error>)
    requires target.Obj? ==> target.ref < |h|
    // a function (or an object inheriting from Function.prototype) is wrapped; nothing else changes
    ensures Classify.IsFunction(target) ==> r == Success((h, Fn(Wrapper(SourceModule, target, None))))
    // exactly the primitives other than null are refused, naming their type
    ensures r.Failure? && r.error.CannotPromiseify? <==>
      target.Undefined? || target.Bool? || target.Num? || target.NaN? || target.Str?
    ensures r.Failure? && r.error.CannotPromiseify? ==> r.error.message == RefusalMessage(target)
    // null comes back unchanged unless `only` or `include` makes the branch read a member of it
    ensures target.Null? ==> (r.Success? <==> NullRead(options.GetOr(NoPolicy)).None?)
    ensures target.Null? && r.Success? ==> r.value == (h, Null)
    // a plain object is adapted in place and returned by the same reference
    ensures target.Obj? && !target.functionProto ==> (r.Success? && r.value.1 == target &&
      AdaptedInPlace(h, target.ref, r.value.0, options.GetOr(NoPolicy), SourceModule, None, objectNames))
    ensures r.Success? && WellFormed(h) ==> WellFormed(r.value.0)
  {
    if Classify.IsFunction(target) {
      r := Success((h, Fn(Wrapper(SourceModule, target, None))));
    } else if Classify.IsObject(target) {
      var discovered;
      r, discovered := AdaptInPlace(h, target, options.GetOr(NoPolicy), SourceModule, None, objectNames);
    } else {
      r := Failure(CannotPromiseify(RefusalMessage(target)));
    }
  }

  /**
   * A call of the wrapper: `isFunction` splits the arguments, and the
   * callbacks settle the promise with the array of their arguments.
   */
  function Invoke(world: World, target: Value, args: seq<Value>, b: Behaviour): (run: (Call, Progress))
    ensures run.0 == Call(target, FreshEmptyObject, SplitArguments(Classify.IsFunction, args).positional + Hooks)
    ensures run.1.state == Deferred.PerformAll(Deferred.Pending, BehaviourAttempts(ArrayStyle, world, b))
    ensures run.1.calls == FireCalls(ArrayStyle, world, SplitArguments(Classify.IsFunction, args), b.sync + b.later)
  {
    InvokeWithHooks(ArrayStyle, Classify.IsFunction, world, target, args, b)
  }

  /**
   * The runner's scenario for this build: a target that fires its success
   * callback with `B` yields a promise fulfilled with the array `B` and calls
   * the user's success callback, if one was passed, with `B`; likewise for
   * failure and rejection.
   */
  lemma CallbackSettlesWithArguments(world: World, target: Value, args: seq<Value>, slot: Slot, B: seq<Value>, v: Value)
    ensures var run := Invoke(world, target, args, Behaviour([Fire(slot, B)], Returned(v), []));
      var s := SplitArguments(Classify.IsFunction, args);
      run.1.state == (if slot == SuccessSlot then Deferred.Fulfilled(ArgArray(B)) else Deferred.Rejected(ArgArray(B))) &&
      run.1.calls == (if HandlerFor(s, slot).Some? then [Call(HandlerFor(s, slot).value, FreshEmptyObject, B)] else [])
  {
    SingleFire(Classify.IsFunction, world, target, args, Fire(slot, B), Returned(v), true);
  }
}

=== FILE: redirecting_promiseifyish.dfy ===
/**
 * docs/scripts/dist/Promiseifyish.js: `Promiseify(target, options)` with the
 * outcome redirector. `options` is normalised to an object before dispatch,
 * every member wrapper of an adapted object shares that one object, and
 * `buildWithOutcomeRedirector` / `Promiseify.nodeStyle` write a redirector
 * into it. Options objects live in their own store, indexed like the heap.
 */
module RedirectingPromiseifyish {
  import opened Wrappers
  import opened JsValues
  import opened Deferred
  import opened Selection
  import opened ObjectAdaptation
  import opened ArgumentSplit
  import opened Invocation
  import opened CallbackSettlement
  import Classify

  /** An options object: the selection lists and `outcomeRedirector` (`undefined` when unset). */
  datatype Options = Options(policy: Policy, outcomeRedirector: Value)

  /** Every options object in existence. */
  type Store = seq<Options>

  /** `options = options || {}`: the caller's object, or a fresh empty one. */
  function Normalize(store: Store, options: Option<Ref>): (res: (Store, Ref))
    requires options.Some? ==> options.value < |store|
    ensures res.1 < |res.0| && |store| <= |res.0| && res.0[..|store|] == store
    ensures options.Some? ==> res == (store, options.value)
    ensures options.None? ==> |res.0| == |store| + 1 && res.1 == |store| && res.0[res.1] == Options(NoPolicy, Undefined)
  {
    if options.Some? then (store, options.value) else (store + [Options(NoPolicy, Undefined)], |store|)
  }

  /**
   * `Promiseify(target, options)`: the options are normalised before the
   * dispatch, so the store comes back normalised whatever the outcome.
   */
  method Promiseify(h: Heap, store: Store, target: Value, options: Option<Ref>, objectNames: set<string>)
    returns (store': Store, r: Result<(Heap, Value), Error>)
    requires target.Obj? ==> target.ref < |h|
    requires options.Some? ==> options.value < |store|
    ensures store' == Normalize(store, options).0
    // a function is wrapped around the normalised options object
    ensures Classify.IsFunction(target) ==> r == Success((h, Fn(Wrapper(RedirectingBuild, target, Some(Normalize(store, options).1)))))
    ensures r.Failure? && r.error.CannotPromiseify? <==>
      target.Undefined? || target.Bool? || target.Num? || target.NaN? || target.Str?
    ensures r.Failure? && r.error.CannotPromiseify? ==>
      r.error.message == "Cannot promiseify type: " + Classify.TypeOf(target).Name()
    ensures target.Null? ==> (r.Success? <==> NullRead(store'[Normalize(store, options).1].policy).None?)
    ensures target.Null? && r.Success? ==> r.value == (h, Null)
    // an object is adapted in place; every member wrapper carries the same options object
    ensures target.Obj? && !target.functionProto ==> (r.Success? && r.value.1 == target &&
      AdaptedInPlace(h, target.ref, r.value.0, store'[Normalize(store, options).1].policy,
        RedirectingBuild, Some(Normalize(store, options).1), objectNames))
    ensures r.Success? && WellFormed(h) ==> WellFormed(r.value.0)
  {
    var normalized := Normalize(store, options);
    var ref := normalized.1;
    store' := normalized.0;
    if Classify.IsFunction(target) {
      r := Success((h, Fn(Wrapper(RedirectingBuild, target, Some(ref)))));
    } else if Classify.IsObject(target) {
      var discovered;
      r, discovered := AdaptInPlace(h, target, store'[ref].policy, RedirectingBuild, Some(ref), objectNames);
    } else {
      r := Failure(CannotPromiseify("Cannot promiseify type: " + Classify.TypeOf(target).Name()));
    }
  }

  /**
   * `store'` is `store` with the normalised options object (the caller's own
   * when one was passed) holding `redirector` and keeping its lists; no
   * other options object differs.
   */
  predicate HoldsRedirector(store: Store, options: Option<Ref>, redirector: Value, store': Store)
    requires options.Some? ==> options.value < |store|
  {
    var normalized := Normalize(store, options);
    |store'| == |normalized.0| &&
    store'[normalized.1] == Options(normalized.0[normalized.1].policy, redirector) &&
    forall k :: 0 <= k < |store| && k != normalized.1 ==> store'[k] == store[k]
  }

  /**
   * `buildWithOutcomeRedirector`: normalise the options, overwrite their
   * `outcomeRedirector`, and promiseify with them. The write comes first, so
   * it stays even when `Promiseify` throws.
   */
  method BuildWithOutcomeRedirector(h: Heap, store: Store, target: Value, options: Option<Ref>, redirector: Value, objectNames: set<string>)
    returns (store': Store, r: Result<(Heap, Value), Error>)
    requires target.Obj? ==> target.ref < |h|
    requires options.Some? ==> options.value < |store|
    ensures HoldsRedirector(store, options, redirector, store')
    ensures Classify.IsFunction(target) ==> r == Success((h, Fn(Wrapper(RedirectingBuild, target, Some(Normalize(store, options).1)))))
    ensures r.Failure? && r.error.CannotPromiseify? <==>
      target.Undefined? || target.Bool? || target.Num? || target.NaN? || target.Str?
    ensures target.Null? ==> (r.Success? <==> NullRead(Normalize(store, options).0[Normalize(store, options).1].policy).None?)
    ensures target.Obj? && !target.functionProto ==> (r.Success? && r.value.1 == target &&
      AdaptedInPlace(h, target.ref, r.value.0, Normalize(store, options).0[Normalize(store, options).1].policy,
        RedirectingBuild, Some(Normalize(store, options).1), objectNames))
    ensures r.Success? && WellFormed(h) ==> WellFormed(r.value.0)
  {
    var normalized := Normalize(store, options);
    var ref := normalized.1;
    var written := normalized.0[ref := normalized.0[ref].(outcomeRedirector := redirector)];
    store', r := Promiseify(h, written, target, Some(ref), objectNames);
  }

  /** `Promiseify.nodeStyle`: `buildWithOutcomeRedirector` with the redirector `error => !error`. */
  method NodeStyle(h: Heap, store: Store, target: Value, options: Option<Ref>, objectNames: set<string>)
    returns (store': Store, r: Result<(Heap, Value), Error>)
    requires target.Obj? ==> target.ref < |h|
    requires options.Some? ==> options.value < |store|
    ensures HoldsRedirector(store, options, Fn(NodeStyleRedirector), store')
    ensures Classify.IsFunction(target) ==> r == Success((h, Fn(Wrapper(RedirectingBuild, target, Some(Normalize(store, options).1)))))
    ensures r.Failure? && r.error.CannotPromiseify? <==>
      target.Undefined? || target.Bool? || target.Num? || target.NaN? || target.Str?
    ensures target.Null? ==> (r.Success? <==> NullRead(Normalize(store, options).0[Normalize(store, options).1].policy).None?)
    ensures target.Obj? && !target.functionProto ==> (r.Success? && r.value.1 == target &&
      AdaptedInPlace(h, target.ref, r.value.0, Normalize(store, options).0[Normalize(store, options).1].policy,
        RedirectingBuild, Some(Normalize(store, options).1), objectNames))
    ensures r.Success? && WellFormed(h) ==> WellFormed(r.value.0)
  {
    store', r := BuildWithOutcomeRedirector(h, store, target, options, Fn(NodeStyleRedirector), objectNames);
  }

  /**
   * After `nodeStyle`, a call of a wrapper carrying its options object settles
   * a fire by the fire's first argument alone: rejected with the arguments
   * when it is truthy (an error), fulfilled with them otherwise. The
   * redirector is configured, so the code as written stores nothing more.
   */
  lemma NodeStyleWrapperSettles(world: World, store: Store, options: Option<Ref>, store': Store,
                                target: Value, args: seq<Value>, f: Fire, v: Value)
    requires options.Some? ==> options.value < |store|
    requires HoldsRedirector(store, options, Fn(NodeStyleRedirector), store')
    ensures var ref := Normalize(store, options).1;
      var b := Behaviour([f], Returned(v), []);
      var settled := if Truthy(ArgAt(f.args, 0)) then Rejected(ArgArray(f.args)) else Fulfilled(ArgArray(f.args));
      Invoke(world, store', ref, target, args, b).1.state == settled &&
      InvokeAsWritten(world, store', ref, target, args, b).1 == store' &&
      InvokeAsWritten(world, store', ref, target, args, b).2.state == settled
  {
    var ref := Normalize(store, options).1;
    var b := Behaviour([f], Returned(v), []);
    var style := Redirected(Fn(NodeStyleRedirector));
    assert store'[ref].outcomeRedirector == Fn(NodeStyleRedirector);
    FirstAttemptWins(BehaviourAttempts(style, world, b));
    NodeStyleRoutes(world, f);
  }

  /**
   * A call of a wrapper whose options object is `store[ref]`: `isFunction`
   * splits the arguments and every fire consults the redirector it holds.
   */
  function Invoke(world: World, store: Store, ref: Ref, target: Value, args: seq<Value>, b: Behaviour): (run: (Call, Progress))
    requires ref < |store|
    ensures run.0 == Call(target, FreshEmptyObject, SplitArguments(Classify.IsFunction, args).positional + Hooks)
    ensures run.1.state == PerformAll(Pending, BehaviourAttempts(Redirected(store[ref].outcomeRedirector), world, b))
    ensures run.1.calls ==
      FireCalls(Redirected(store[ref].outcomeRedirector), world, SplitArguments(Classify.IsFunction, args), b.sync + b.later)
  {
    InvokeWithHooks(Redirected(store[ref].outcomeRedirector), Classify.IsFunction, world, target, args, b)
  }

  /**
   * With a callable redirector, a fire with `B` settles by `!!redirector(...B)`
   * alone: fulfilled with `B` on a truthy verdict, rejected with `B` otherwise,
   * whichever synthesized callback fired; the routed user callback gets `B`.
   */
  lemma RedirectorDecides(world: World, store: Store, ref: Ref, target: Value, args: seq<Value>, slot: Slot, B: seq<Value>, v: Value)
    requires ref < |store|
    requires Truthy(store[ref].outcomeRedirector) && Classify.IsFunction(store[ref].outcomeRedirector)
    ensures var verdict := Truthy(Apply(world, store[ref].outcomeRedirector, B));
      var s := SplitArguments(Classify.IsFunction, args);
      var routed := if verdict then SuccessSlot else FailureSlot;
      var run := Invoke(world, store, ref, target, args, Behaviour([Fire(slot, B)], Returned(v), []));
      run.1.state == (if verdict then Fulfilled(ArgArray(B)) else Rejected(ArgArray(B))) &&
      run.1.calls == [Call(store[ref].outcomeRedirector, FreshEmptyObject, B)] +
        (if HandlerFor(s, routed).Some? then [Call(HandlerFor(s, routed).value, FreshEmptyObject, B)] else [])
  {
    var b := Behaviour([Fire(slot, B)], Returned(v), []);
    FirstAttemptWins(BehaviourAttempts(Redirected(store[ref].outcomeRedirector), world, b));
    assert b.sync + b.later == [Fire(slot, B)];
    assert FireCalls(Redirected(store[ref].outcomeRedirector), world, SplitArguments(Classify.IsFunction, args), [Fire(slot, B)][1..]) == [];
  }

  /** A configured value that is not callable makes `execute` answer `null`: every fire rejects. */
  lemma NonCallableRedirectorRejects(world: World, configured: Value, f: Fire)
    requires Truthy(configured) && !Classify.IsFunction(configured)
    ensures AttemptOf(Redirected(configured), world, f) == Reject(ArgArray(f.args))
  {
  }

  /**
   * Node style: the success path is taken exactly when the first callback
   * argument is falsy, whichever synthesized callback fired; so a success
   * fire with a truthy value rejects and a failure fire with a falsy one fulfils.
   */
  lemma NodeStyleRoutes(world: World, f: Fire)
    ensures AttemptOf(Redirected(Fn(NodeStyleRedirector)), world, f) ==
      if Truthy(ArgAt(f.args, 0)) then Reject(ArgArray(f.args)) else Fulfil(ArgArray(f.args))
  {
  }

  /**
   * Without a configured redirector the slot that fired decides: `onSuccess`
   * fulfils and `onFailure` rejects. This is the behaviour the fallback
   * redirectors are meant to give, and the model's `Invoke` has it because
   * it reads the options object without writing to it.
   */
  lemma FallbackFollowsSlot(world: World, configured: Value, f: Fire)
    requires !Truthy(configured)
    ensures AttemptOf(Redirected(configured), world, f) ==
      if f.slot == SuccessSlot then Fulfil(ArgArray(f.args)) else Reject(ArgArray(f.args))
  {
  }

  /**
   * `onSuccess` / `onFailure` as written: `options.outcomeRedirector =
   * options.outcomeRedirector || <constant>` stores the fallback into the
   * shared options object before consulting it. The promise is settled as
   * `OnFire` settles it; the difference is the write.
   */
  function OnFireAsWritten(world: World, s: Split, store: Store, ref: Ref, p: Progress, f: Fire): (res: (Store, Progress))
    requires ref < |store|
    ensures |res.0| == |store| && forall k :: 0 <= k < |store| && k != ref ==> res.0[k] == store[k]
    ensures res.0[ref].policy == store[ref].policy
    ensures Truthy(store[ref].outcomeRedirector) ==> res.0 == store
    ensures !Truthy(store[ref].outcomeRedirector) ==> Truthy(res.0[ref].outcomeRedirector)
    ensures res.1 == OnFire(Redirected(store[ref].outcomeRedirector), Classify.IsFunction, world, s, p, f)
  {
    var stored := RedirectorFor(store[ref].outcomeRedirector, f.slot);
    (store[ref := store[ref].(outcomeRedirector := stored)], OnFire(Redirected(stored), Classify.IsFunction, world, s, p, f))
  }

  /** The fires of one stretch of a call as written: each fire reads the options object the previous one left. */
  function DeliverAsWritten(world: World, s: Split, store: Store, ref: Ref, p: Progress, fires: seq<Fire>): (res: (Store, Progress))
    requires ref < |store|
    ensures |res.0| == |store| && forall k :: 0 <= k < |store| && k != ref ==> res.0[k] == store[k]
    ensures res.0[ref].policy == store[ref].policy
    ensures Truthy(store[ref].outcomeRedirector) ==> res.0 == store
    ensures |fires| > 0 ==> Truthy(res.0[ref].outcomeRedirector)
    decreases |fires|
  {
    if |fires| == 0 then (store, p)
    else
      var next := OnFireAsWritten(world, s, store, ref, p, fires[0]);
      DeliverAsWritten(world, s, next.0, ref, next.1, fires[1..])
  }

  /** The executor as written: synchronous fires, a synchronous throw, then later fires, threading the options. */
  function ExecutorAsWritten(world: World, s: Split, store: Store, ref: Ref, b: Behaviour): (res: (Store, Progress))
    requires ref < |store|
    ensures |res.0| == |store| && forall k :: 0 <= k < |store| && k != ref ==> res.0[k] == store[k]
    ensures res.0[ref].policy == store[ref].policy
    ensures Truthy(store[ref].outcomeRedirector) ==> res.0 == store
    ensures |b.sync + b.later| > 0 ==> Truthy(res.0[ref].outcomeRedirector)
  {
    var first := DeliverAsWritten(world, s, store, ref, Progress([], Pending), b.sync);
    var p := if b.completion.Threw? then first.1.(state := RejectWith(first.1.state, Plain(b.completion.error))) else first.1;
    DeliverAsWritten(world, s, first.0, ref, p, b.later)
  }

  /**
   * What the fires of a call leave in the options store: nothing new when a
   * redirector was configured or nothing fired, otherwise the fallback of
   * the first fire.
   */
  function PinnedStore(store: Store, ref: Ref, fires: seq<Fire>): Store
    requires ref < |store|
  {
    if Truthy(store[ref].outcomeRedirector) || |fires| == 0 then store
    else store[ref := store[ref].(outcomeRedirector := RedirectorFor(store[ref].outcomeRedirector, fires[0].slot))]
  }

  /** With a configured redirector the writes change nothing: the fires are delivered as `Deliver` does. */
  lemma {:induction false} DeliverAsWrittenConfigured(world: World, s: Split, store: Store, ref: Ref, p: Progress, fires: seq<Fire>)
    requires ref < |store| && Truthy(store[ref].outcomeRedirector)
    ensures DeliverAsWritten(world, s, store, ref, p, fires) ==
      (store, Deliver(Redirected(store[ref].outcomeRedirector), Classify.IsFunction, world, s, p, fires))
    decreases |fires|
  {
    if |fires| > 0 {
      var next := OnFireAsWritten(world, s, store, ref, p, fires[0]);
      DeliverAsWrittenConfigured(world, s, next.0, ref, next.1, fires[1..]);
    }
  }

  /**
   * As written, the first fire pins its fallback and every fire, the first
   * included, is delivered as `Deliver` delivers it under the pinned redirector.
   */
  lemma DeliverAsWrittenPins(world: World, s: Split, store: Store, ref: Ref, p: Progress, fires: seq<Fire>)
    requires ref < |store|
    ensures DeliverAsWritten(world, s, store, ref, p, fires) == (PinnedStore(store, ref, fires),
      Deliver(Redirected(PinnedStore(store, ref, fires)[ref].outcomeRedirector), Classify.IsFunction, world, s, p, fires))
  {
    if Truthy(store[ref].outcomeRedirector) {
      DeliverAsWrittenConfigured(world, s, store, ref, p, fires);
    } else if |fires| > 0 {
      var next := OnFireAsWritten(world, s, store, ref, p, fires[0]);
      var pinned := PinnedStore(store, ref, fires);
      assert next.0 == pinned;
      assert next.1 == OnFire(Redirected(pinned[ref].outcomeRedirector), Classify.IsFunction, world, s, p, fires[0]);
      DeliverAsWrittenConfigured(world, s, next.0, ref, next.1, fires[1..]);
    }
  }

  /** The executor as written is the corrected executor under the store its first fire pins. */
  lemma ExecutorAsWrittenPins(world: World, s: Split, store: Store, ref: Ref, b: Behaviour)
    requires ref < |store|
    ensures var pinned := PinnedStore(store, ref, b.sync + b.later);
      ExecutorAsWritten(world, s, store, ref, b) ==
        (pinned, Executor(Redirected(pinned[ref].outcomeRedirector), Classify.IsFunction, world, s, b))
  {
    var pinned := PinnedStore(store, ref, b.sync + b.later);
    var first := DeliverAsWritten(world, s, store, ref, Progress([], Pending), b.sync);
    DeliverAsWrittenPins(world, s, store, ref, Progress([], Pending), b.sync);
    var p := if b.completion.Threw? then first.1.(state := RejectWith(first.1.state, Plain(b.completion.error))) else first.1;
    DeliverAsWrittenPins(world, s, first.0, ref, p, b.later);
    if |b.sync| > 0 {
      assert (b.sync + b.later)[0] == b.sync[0];
      assert first.0 == pinned;
      assert PinnedStore(first.0, ref, b.later) == pinned;
    } else {
      assert b.sync + b.later == b.later;
      assert first == (store, Progress([], Pending));
    }
  }

  /**
   * A call of a wrapper whose options object is `store[ref]`, as
   * docs/scripts/dist/Promiseifyish.js writes it: the fires read and write
   * the shared options object in turn, and the store comes back with the
   * call. Once a fire has stored its fallback, every later fire, in this
   * call or in any later call sharing the options object, is routed by it.
   */
  function InvokeAsWritten(world: World, store: Store, ref: Ref, target: Value, args: seq<Value>, b: Behaviour): (run: (Call, Store, Progress))
    requires ref < |store|
    ensures run.0 == Call(target, FreshEmptyObject, SplitArguments(Classify.IsFunction, args).positional + Hooks)
    ensures run.1 == PinnedStore(store, ref, b.sync + b.later)
    ensures run.2.state == PerformAll(Pending, BehaviourAttempts(Redirected(run.1[ref].outcomeRedirector), world, b))
    ensures run.2.calls ==
      FireCalls(Redirected(run.1[ref].outcomeRedirector), world, SplitArguments(Classify.IsFunction, args), b.sync + b.later)
  {
    var s := SplitArguments(Classify.IsFunction, args);
    var pinned := PinnedStore(store, ref, b.sync + b.later);
    ExecutorAsWrittenPins(world, s, store, ref, b);
    ExecutorSettles(Redirected(pinned[ref].outcomeRedirector), Classify.IsFunction, world, s, b);
    ExecutorCalls(Redirected(pinned[ref].outcomeRedirector), Classify.IsFunction, world, s, b);
    var run := ExecutorAsWritten(world, s, store, ref, b);
    (Call(target, FreshEmptyObject, s.positional + Hooks), run.0, run.1)
  }

  /** A fire routed by a stored constant redirector settles and calls back as the constant says. */
  lemma PinnedRoute(world: World, s: Split, slot: Slot, f: Fire)
    ensures var pinned := Fn(if slot == SuccessSlot then TrueRedirector else FalseRedirector);
      AttemptOf(Redirected(pinned), world, f) ==
        (if slot == SuccessSlot then Fulfil(ArgArray(f.args)) else Reject(ArgArray(f.args))) &&
      FireCall(Redirected(pinned), world, s, f) == [Call(pinned, FreshEmptyObject, f.args)] +
        (if HandlerFor(s, slot).Some? then [Call(HandlerFor(s, slot).value, FreshEmptyObject, f.args)] else [])
  {
  }

  /**
   * As written, within one call: a target that fires `onFailure(...B1)` and
   * then `onSuccess(...B2)` runs the user's failure callback both times, the
   * second time with `B2`, because the second fire reads the stored
   * `falseRedirector`; the options object keeps it.
   */
  lemma StickyWithinCall(world: World, store: Store, ref: Ref, target: Value, args: seq<Value>, B1: seq<Value>, B2: seq<Value>, v: Value)
    requires ref < |store| && !Truthy(store[ref].outcomeRedirector)
    ensures var run := InvokeAsWritten(world, store, ref, target, args,
        Behaviour([Fire(FailureSlot, B1), Fire(SuccessSlot, B2)], Returned(v), []));
      var s := SplitArguments(Classify.IsFunction, args);
      var cbF1 := if s.failure.Some? then [Call(s.failure.value, FreshEmptyObject, B1)] else [];
      var cbF2 := if s.failure.Some? then [Call(s.failure.value, FreshEmptyObject, B2)] else [];
      run.1[ref].outcomeRedirector == Fn(FalseRedirector) &&
      run.2.state == Rejected(ArgArray(B1)) &&
      run.2.calls == [Call(Fn(FalseRedirector), FreshEmptyObject, B1)] + cbF1 + ([Call(Fn(FalseRedirector), FreshEmptyObject, B2)] + cbF2)
  {
    var fires := [Fire(FailureSlot, B1), Fire(SuccessSlot, B2)];
    var b := Behaviour(fires, Returned(v), []);
    var s := SplitArguments(Classify.IsFunction, args);
    var style := Redirected(Fn(FalseRedirector));
    assert b.sync + b.later == fires;
    FirstAttemptWins(BehaviourAttempts(style, world, b));
    PinnedRoute(world, s, FailureSlot, fires[0]);
    PinnedRoute(world, s, FailureSlot, fires[1]);
    assert fires[1..] == [fires[1]];
    OneFireCalls(style, world, s, fires[1]);
    assert FireCalls(style, world, s, fires) == FireCall(style, world, s, fires[0]) + FireCall(style, world, s, fires[1]);
  }

  /**
   * As written, a call on an options object that holds `falseRedirector`
   * rejects an `onSuccess(...B)` fire with `B` and runs the user's failure
   * callback.
   */
  lemma PinnedFalseRejects(world: World, store: Store, ref: Ref, target: Value, args: seq<Value>, B: seq<Value>, v: Value)
    requires ref < |store| && store[ref].outcomeRedirector == Fn(FalseRedirector)
    ensures var run := InvokeAsWritten(world, store, ref, target, args, Behaviour([Fire(SuccessSlot, B)], Returned(v), []));
      var s := SplitArguments(Classify.IsFunction, args);
      run.2.state == Rejected(ArgArray(B)) &&
      run.2.calls == [Call(Fn(FalseRedirector), FreshEmptyObject, B)] +
        (if s.failure.Some? then [Call(s.failure.value, FreshEmptyObject, B)] else [])
  {
    var b := Behaviour([Fire(SuccessSlot, B)], Returned(v), []);
    var s := SplitArguments(Classify.IsFunction, args);
    var style := Redirected(Fn(FalseRedirector));
    assert b.sync + b.later == [Fire(SuccessSlot, B)];
    FirstAttemptWins(BehaviourAttempts(style, world, b));
    PinnedRoute(world, s, FailureSlot, Fire(SuccessSlot, B));
    OneFireCalls(style, world, s, Fire(SuccessSlot, B));
  }

  /**
   * As written, across calls: after a call of a wrapper without a configured
   * redirector whose first fire is `onFailure`, a later call of any wrapper
   * sharing the options object whose target fires `onSuccess(...B)` is
   * rejected with `B` and runs the user's failure callback.
   */
  lemma StickyAcrossCalls(world: World, store: Store, ref: Ref, target: Value, args: seq<Value>, b: Behaviour,
                          target2: Value, args2: seq<Value>, B: seq<Value>, v: Value)
    requires ref < |store| && !Truthy(store[ref].outcomeRedirector)
    requires |b.sync + b.later| > 0 && (b.sync + b.later)[0].slot == FailureSlot
    ensures var first := InvokeAsWritten(world, store, ref, target, args, b);
      var second := InvokeAsWritten(world, first.1, ref, target2, args2, Behaviour([Fire(SuccessSlot, B)], Returned(v), []));
      var s := SplitArguments(Classify.IsFunction, args2);
      second.2.state == Rejected(ArgArray(B)) &&
      second.2.calls == [Call(Fn(FalseRedirector), FreshEmptyObject, B)] +
        (if s.failure.Some? then [Call(s.failure.value, FreshEmptyObject, B)] else [])
  {
    var pinned := InvokeAsWritten(world, store, ref, target, args, b).1;
    assert pinned[ref].outcomeRedirector == Fn(FalseRedirector);
    PinnedFalseRejects(world, pinned, ref, target2, args2, B, v);
  }

  /**
   * The corrected reading keeps the fallback local to the fire: `Invoke`
   * never writes the options object, so whatever earlier calls fired, a call
   * whose target fires `onSuccess(...B)` is fulfilled with `B` and runs the
   * user's success callback.
   */
  lemma FallbackIsNotSticky(world: World, store: Store, ref: Ref, target: Value, args: seq<Value>, B: seq<Value>, v: Value)
    requires ref < |store| && !Truthy(store[ref].outcomeRedirector)
    ensures var run := Invoke(world, store, ref, target, args, Behaviour([Fire(SuccessSlot, B)], Returned(v), []));
      var s := SplitArguments(Classify.IsFunction, args);
      run.1.state == Fulfilled(ArgArray(B)) &&
      run.1.calls == [Call(Fn(TrueRedirector), FreshEmptyObject, B)] +
        (if s.success.Some? then [Call(s.success.value, FreshEmptyObject, B)] else [])
  {
    var b := Behaviour([Fire(SuccessSlot, B)], Returned(v), []);
    var s := SplitArguments(Classify.IsFunction, args);
    var style := Redirected(store[ref].outcomeRedirector);
    assert b.sync + b.later == [Fire(SuccessSlot, B)];
    FirstAttemptWins(BehaviourAttempts(style, world, b));
    assert FireCalls(style, world, s, [Fire(SuccessSlot, B)]) == FireCall(style, world, s, Fire(SuccessSlot, B)) by {
      assert [Fire(SuccessSlot, B)][1..] == [];
    }
  }
}

=== FILE: selection.dfy ===
/**
 * The member-selection policy of the object branch: `only` replaces the
 * discovered names outright; otherwise `include` replaces them with the
 * listed names that are currently callable, and `exclude` then removes names.
 */
module Selection {
  import opened Wrappers
  import opened Sequences

  /** The `only`, `include` and `exclude` options; `None` is an absent (falsy) field. */
  datatype Policy = Policy(only: Option<seq<string>>, includes: Option<seq<string>>, excludes: Option<seq<string>>)

  /** `options || {}`: no field set. */
  const NoPolicy := Policy(None, None, None)

  /** The index of the first occurrence of `x`. */
  function FirstIndex(s: seq<string>, x: string): (k: nat)
    requires x in s
    ensures k < |s| && s[k] == x && x !in s[..k]
  {
    if s[0] == x then 0
    else
      var k := 1 + FirstIndex(s[1..], x);
      assert s[..k] == [s[0]] + s[1..][..k - 1];
      k
  }

  /** A first occurrence inside a prefix is the first occurrence in the whole list. */
  lemma FirstIndexOfPrefix(s: seq<string>, m: nat, x: string)
    requires m <= |s| && x in s[..m]
    ensures FirstIndex(s, x) == FirstIndex(s[..m], x)
  {
    var a := FirstIndex(s, x);
    var b := FirstIndex(s[..m], x);
    assert s[..m][..b] == s[..b];
    assert x in s[..a] <==> exists j :: 0 <= j < a && s[j] == x;
    assert s[..m][b] == s[b];
  }

  /**
   * `include.forEach(name => { if (!list.includes(name) && isFunction(target[name])) list.push(name) })`,
   * starting from an empty list: the callable listed names, each once, in
   * the order of their first occurrence.
   */
  function IncludeNames(listed: seq<string>, callable: string -> bool): (r: seq<string>)
    ensures NoDuplicates(r)
    ensures forall n :: n in r <==> n in listed && callable(n)
    ensures forall i, j :: 0 <= i < j < |r| ==> FirstIndex(listed, r[i]) < FirstIndex(listed, r[j])
    decreases |listed|
  {
    if |listed| == 0 then []
    else
      var m := |listed| - 1;
      var prefix := listed[..m];
      var r := IncludeNames(prefix, callable);
      var name := listed[m];
      assert listed == prefix + [name];
      PrefixFirstIndices(listed, m, r);
      if name !in r && callable(name) then
        assert name !in prefix;
        assert FirstIndex(listed, name) == m;
        r + [name]
      else
        r
  }

  /** Names that occur in a prefix keep their first index in the whole list. */
  lemma PrefixFirstIndices(listed: seq<string>, m: nat, r: seq<string>)
    requires m <= |listed| && forall x :: x in r ==> x in listed[..m]
    ensures forall i :: 0 <= i < |r| ==>
      r[i] in listed[..m] && r[i] in listed && FirstIndex(listed, r[i]) == FirstIndex(listed[..m], r[i]) < m
  {
    forall i | 0 <= i < |r|
      ensures r[i] in listed[..m] && r[i] in listed && FirstIndex(listed, r[i]) == FirstIndex(listed[..m], r[i]) < m
    {
      assert r[i] in listed[..m];
      assert r[i] in listed;
      FirstIndexOfPrefix(listed, m, r[i]);
    }
  }

  /**
   * `exclude.forEach(name => { list = list.filter(candidate => candidate !== name) })`:
   * one filtering pass per excluded name.
   */
  function ExcludeNames(names: seq<string>, exclude: seq<string>): (kept: seq<string>)
    ensures |kept| <= |names|
    ensures forall n :: n in kept <==> n in names && n !in exclude
    decreases |exclude|
  {
    if |exclude| == 0 then names
    else ExcludeNames(Filter(names, (c: string) => c != exclude[0]), exclude[1..])
  }

  /** Filtering twice is filtering once by both tests. */
  lemma {:induction false} FilterTwice(s: seq<string>, p: string -> bool, q: string -> bool, pq: string -> bool)
    requires forall x :: pq(x) == (p(x) && q(x))
    ensures Filter(Filter(s, p), q) == Filter(s, pq)
  {
    if |s| > 0 {
      FilterTwice(s[1..], p, q, pq);
      if p(s[0]) {
        assert Filter(s, p) == [s[0]] + Filter(s[1..], p);
        assert Filter(s, p)[1..] == Filter(s[1..], p);
      }
    }
  }

  /** Filters by tests that agree on every element coincide. */
  lemma {:induction false} FilterAgree(s: seq<string>, p: string -> bool, q: string -> bool)
    requires forall x :: x in s ==> p(x) == q(x)
    ensures Filter(s, p) == Filter(s, q)
  {
    if |s| > 0 {
      FilterAgree(s[1..], p, q);
    }
  }

  /**
   * The per-name passes equal one pass that drops every occurrence of every
   * excluded name and keeps the rest in order.
   */
  lemma {:induction false} ExcludeIsOneFilter(names: seq<string>, exclude: seq<string>)
    ensures ExcludeNames(names, exclude) == Filter(names, (c: string) => c !in exclude)
    decreases |exclude|
  {
    if |exclude| == 0 {
      FilterAgree(names, (c: string) => true, (c: string) => c !in exclude);
      FilterKeepAll(names);
    } else {
      var first := (c: string) => c != exclude[0];
      var rest := (c: string) => c !in exclude[1..];
      var all := (c: string) => c !in exclude;
      ExcludeIsOneFilter(Filter(names, first), exclude[1..]);
      assert exclude == [exclude[0]] + exclude[1..];
      FilterTwice(names, first, rest, all);
    }
  }

  lemma {:induction false} FilterKeepAll(s: seq<string>)
    ensures Filter(s, (c: string) => true) == s
  {
    if |s| > 0 {
      FilterKeepAll(s[1..]);
    }
  }

  /** The names the object branch adapts, given the discovered `defaults`. */
  function Select(defaults: seq<string>, policy: Policy, callable: string -> bool): (r: seq<string>)
    // only: taken verbatim, include and exclude ignored
    ensures policy.only.Some? ==> r == policy.only.value
    // otherwise membership follows include (or the defaults) minus exclude
    ensures policy.only.None? ==> forall n :: n in r <==>
      (if policy.includes.Some? then n in policy.includes.value && callable(n) else n in defaults) &&
      (policy.excludes.Some? ==> n !in policy.excludes.value)
    ensures policy.only.None? && (policy.includes.Some? || NoDuplicates(defaults)) ==> NoDuplicates(r)
  {
    if policy.only.Some? then policy.only.value
    else
      var start := if policy.includes.Some? then IncludeNames(policy.includes.value, callable) else defaults;
      if policy.excludes.Some? then
        ExcludeIsOneFilter(start, policy.excludes.value);
        assert NoDuplicates(start) ==> NoDuplicates(Filter(start, (c: string) => c !in policy.excludes.value)) by {
          if NoDuplicates(start) {
            FilterNoDuplicates(start, (c: string) => c !in policy.excludes.value);
          }
        }
        ExcludeNames(start, policy.excludes.value)
      else start
  }

  /**
   * An illustration of the precedence rule that `Select` states for every
   * input: `{only: ['a'], include: ['b'], exclude: ['a']}` selects exactly `a`.
   */
  lemma OnlyWins(defaults: seq<string>, callable: string -> bool)
    ensures Select(defaults, Policy(Some(["a"]), Some(["b"]), Some(["a"])), callable) == ["a"]
  {
  }
}

=== FILE: sequences.dfy ===
/** Small facts about sequences shared by the name-list operations. */
module Sequences {

  /** No element occurs twice. */
  predicate NoDuplicates<T(==)>(s: seq<T>) {
    forall i, j :: 0 <= i < j < |s| ==> s[i] != s[j]
  }

  /** The elements of `s` that satisfy `keep`, in their original order. */
  function Filter<T(==,!new)>(s: seq<T>, keep: T -> bool): (r: seq<T>)
    ensures |r| <= |s|
    ensures forall x :: x in r <==> x in s && keep(x)
  {
    if |s| == 0 then []
    else if keep(s[0]) then [s[0]] + Filter(s[1..], keep)
    else Filter(s[1..], keep)
  }

  lemma {:induction false} FilterNoDuplicates<T(!new)>(s: seq<T>, keep: T -> bool)
    requires NoDuplicates(s)
    ensures NoDuplicates(Filter(s, keep))
  {
    if |s| > 0 {
      FilterNoDuplicates(s[1..], keep);
    }
  }

  /** Concatenation is associative. */
  lemma AppendAssoc<T>(a: seq<T>, b: seq<T>, c: seq<T>)
    ensures a + (b + c) == (a + b) + c
  {
  }

  /** The empty sequence is a left unit of concatenation. */
  lemma EmptyAppend<T>(a: seq<T>)
    ensures [] + a == a
  {
  }
}

=== FILE: string_order.dfy ===
/**
 * The order `Array.prototype.sort` uses for strings when no comparator is
 * given (code-unit lexicographic order), and an insertion sort by it.
 */
module StringOrder {
  import opened Sequences

  /** `a` sorts strictly before `b`: a proper prefix, or smaller at the first difference. */
  predicate Less(a: string, b: string) {
    |b| > 0 && (|a| == 0 || a[0] < b[0] || (a[0] == b[0] && Less(a[1..], b[1..])))
  }

  lemma {:induction false} LessIrreflexive(a: string)
    ensures !Less(a, a)
  {
    if |a| > 0 {
      LessIrreflexive(a[1..]);
    }
  }

  lemma {:induction false} LessAsymmetric(a: string, b: string)
    requires Less(a, b)
    ensures !Less(b, a)
  {
    if |a| > 0 && a[0] == b[0] {
      LessAsymmetric(a[1..], b[1..]);
    }
  }

  lemma {:induction false} LessTransitive(a: string, b: string, c: string)
    requires Less(a, b) && Less(b, c)
    ensures Less(a, c)
  {
    if |a| > 0 && a[0] == b[0] && b[0] == c[0] {
      LessTransitive(a[1..], b[1..], c[1..]);
    }
  }

  lemma {:induction false} LessTotal(a: string, b: string)
    requires a != b
    ensures Less(a, b) || Less(b, a)
  {
    if |a| > 0 && |b| > 0 && a[0] == b[0] {
      assert a == [a[0]] + a[1..] && b == [b[0]] + b[1..];
      LessTotal(a[1..], b[1..]);
    }
  }

  /** Strictly increasing, hence free of duplicates. */
  predicate StrictlySorted(s: seq<string>) {
    forall i, j :: 0 <= i < j < |s| ==> Less(s[i], s[j])
  }

  /** A strictly sorted list repeats no element. */
  lemma SortedHasNoDuplicates(s: seq<string>)
    requires StrictlySorted(s)
    ensures NoDuplicates(s)
  {
    forall i, j | 0 <= i < j < |s| ensures s[i] != s[j] {
      LessIrreflexive(s[i]);
    }
  }

  /** A head below every element of a strictly sorted tail keeps the list strictly sorted. */
  lemma SortedCons(x: string, s: seq<string>)
    requires StrictlySorted(s)
    requires forall y :: y in s ==> Less(x, y)
    ensures StrictlySorted([x] + s)
  {
    forall i, j | 0 <= i < j < |[x] + s| ensures Less(([x] + s)[i], ([x] + s)[j]) {
      if i > 0 {
        assert ([x] + s)[i] == s[i - 1] && ([x] + s)[j] == s[j - 1];
      } else {
        assert ([x] + s)[j] == s[j - 1];
      }
    }
  }

  /** Places `x` into a strictly sorted list that lacks it. */
  function Insert(x: string, s: seq<string>): (r: seq<string>)
    requires StrictlySorted(s) && x !in s
    ensures StrictlySorted(r)
    ensures multiset(r) == multiset(s) + multiset{x}
  {
    if |s| == 0 then [x]
    else if Less(x, s[0]) then
      assert forall y :: y in s ==> Less(x, y) by {
        forall y | y in s ensures Less(x, y) {
          if y != s[0] {
            LessTransitive(x, s[0], y);
          }
        }
      }
      SortedCons(x, s);
      [x] + s
    else
      assert s == [s[0]] + s[1..];
      var rest := Insert(x, s[1..]);
      assert Less(s[0], x) by {
        LessTotal(x, s[0]);
      }
      assert forall y :: y in rest ==> Less(s[0], y) by {
        forall y | y in rest ensures Less(s[0], y) {
          assert y in multiset(rest);
          if y != x {
            assert y in s[1..];
          }
        }
      }
      SortedCons(s[0], rest);
      [s[0]] + rest
  }

  /** Sorts a duplicate-free list of names. */
  function Sort(s: seq<string>): (r: seq<string>)
    requires NoDuplicates(s)
    ensures StrictlySorted(r)
    ensures multiset(r) == multiset(s)
  {
    if |s| == 0 then []
    else
      assert s == [s[0]] + s[1..];
      var rest := Sort(s[1..]);
      assert s[0] !in rest by {
        assert s[0] !in multiset(s[1..]);
      }
      Insert(s[0], rest)
  }

  /**
   * A strictly sorted list is determined by its elements: whatever order the
   * names were gathered in, sorting yields the same list.
   */
  lemma {:induction false} SortedUnique(a: seq<string>, b: seq<string>)
    requires StrictlySorted(a) && StrictlySorted(b)
    requires forall x :: x in a <==> x in b
    ensures a == b
  {
    assert |a| > 0 ==> a[0] in b;
    assert |b| > 0 ==> b[0] in a;
    if |a| > 0 && |b| > 0 {
      assert a[0] in b && b[0] in a;
      assert a[0] == b[0] by {
        if a[0] != b[0] {
          var i :| 0 <= i < |b| && b[i] == a[0];
          var j :| 0 <= j < |a| && a[j] == b[0];
          assert i > 0 && j > 0;
          LessAsymmetric(b[0], b[i]);
        }
      }
      assert forall x :: x in a[1..] <==> x in b[1..] by {
        forall x ensures x in a[1..] <==> x in b[1..] {
          if x in a[1..] {
            var i :| 1 <= i < |a| && a[i] == x;
            LessIrreflexive(a[0]);
            assert x in b && x != b[0];
          }
          if x in b[1..] {
            var i :| 1 <= i < |b| && b[i] == x;
            LessIrreflexive(b[0]);
            assert x in a && x != a[0];
          }
        }
      }
      SortedUnique(a[1..], b[1..]);
      assert a == [a[0]] + a[1..] && b == [b[0]] + b[1..];
    }
  }
}

=== FILE: wrappers.dfy ===
/** Optional values and results with an error side, used across the model. */
module Wrappers {

  /** A value that may be absent (an `undefined` option, a missing callback). */
  datatype Option<+T> = None | Some(value: T) {

    /** The carried value, or `default` when absent. */
    function GetOr(default: T): T {
      match this
      case Some(v) => v
      case None => default
    }
  }

  /** The outcome of an operation that may throw: its value, or the thrown error. */
  datatype Result<+R, +E> = Success(value: R) | Failure(error: E) {

    predicate IsFailure() {
      Failure?
    }
  }
}
